=== FILE: README.md ===
# Dropout-risk mobile client: a Dafny model of its client-side rules

This project models the client-side logic of a mobile app for an academic
dropout-risk platform: sign-in, password recovery, a student dashboard, a
counselor roster dashboard and a support chatbot. Rendering is left aside.
What remains is a set of small sequential rules, modelled as pure functions
over immutable records:

- the input checks of the sign-in, forgot-password and reset-password forms,
  including the password-strength rule;
- the authentication service over the device's key/value store (AsyncStorage):
  storing the session on sign-in, clearing it on sign-out, and the token gate
  in front of authenticated calls;
- the request wrapper's choice of error message (`makeRequest`, in both
  services);
- the chat transcript store, message identifiers, and the chat panel as a
  state machine whose every change is saved back to the store;
- the counselor roster helpers (initials, avatar colour, risk badge and icon,
  attendance bar) and the demo roster;
- the load-or-demo fallback of both dashboards, and how the student dashboard
  substitutes demo figures for missing or zero values.

Modules follow the source files: `AuthService`, `ChatbotService`,
`ResetPassword`, `ForgotPassword`, `LoginScreen`, `Chatbot`,
`CounselorDashboard`, `Dashboard`. Shared pieces live in `Wrappers` (Option,
Result), `Text` (the JavaScript string operations used), `Domain` and
`Analytics` (records), `Storage` (AsyncStorage), `Gateway` (`fetch` outcomes
and requests) and `Ui` (screens and alerts).

Modelling choices:

- **Remote calls are inputs.** A `Transport<B>` value says what one `fetch`
  produced: a reply (ok or not, with its `message`/`error` fields and a body),
  a reply whose body is not JSON, or a rejection. Every screen handler takes
  it as a parameter and reports the `Request` it would send, so "no request is
  made" is a checkable statement. The counselor screen is the exception: its
  roster call is taken as an opaque outcome (see below) and it reports no
  request.
- **The store can fail.** `Store` holds the entries and an optional fault.
  While faulty, every AsyncStorage call rejects with that message. This covers
  the source's `catch` branches around storage.
- **Values are strings.** A stored value is either text written verbatim (the
  token) or the serialisation of a user record or transcript. Text written
  verbatim is treated as text `JSON.parse` rejects.
- **Alerts and navigation are recorded, not performed.** The sign-in handler
  returns the screen its success alert's OK button leads to.
  Confirmation dialogs (sign-out, clear chat) take the user's answer as a
  parameter.
- **Clock readings and random numbers are inputs** (`Tick`).

The client does no numeric aggregation of its own. `getDashboardData`
returns the reply's `data` field or the whole body
(services/authService.ts:159). The counselor screen calls
`authService.getCounselorDashboard`, which services/authService.ts does not
define. As the files stand, that call throws a `TypeError` inside the `try`,
so the screen always shows the demo roster (`TodayAlwaysDemo`). The model
takes the call's outcome as an input that may succeed or fail, which covers
a service that does define it. Only the failing branch happens with the code
as written.

Observations the proofs bring out:

- The password rule uses regular-expression lookaheads whose `.` stops at line
  breaks. A password whose lower-case and upper-case letters sit on different
  lines is refused even though it has both (`LettersOnSeparateLinesRefused`).
- The dashboard's `||` defaults treat 0 as missing. A real GPA change of 0
  is shown as an upward `+2.3` (`ZeroShowsDemoFigures`).
- After "clear history", the save-on-change effect writes the new welcome
  message back, so the stored history is not left empty
  (`ClearedTranscriptIsReloaded`).
- The demo counselor summary's average GPA (2.6) is not the mean of its five
  students (2.76). Its attendance (73) is the mean (`MockAveragesAgainstRoster`).
- The dashboard's outer error handler, with its alert, cannot be reached:
  reading the stored user never rejects and the fetch has its own handler
  (`LoadDashboardData` never raises an alert).

## Model

| member | source | states |
|---|---|---|
| Gateway.AuthOutcome | services/authService.ts:30-53 | a non-ok reply fails with the body's `message`, or "Something went wrong" when it has none, and that message is never empty; a non-JSON body fails with the parse error; an `Error` rejection (a failed `fetch`) is rethrown with its own message; any other rejection becomes "Network error occurred"; only an ok reply succeeds, with its body |
| Gateway.ChatOutcome | services/chatbotService.ts:19-42 | the chatbot's wrapper differs from the authentication one only on a non-ok reply with a truthy `error` field, which then wins |
| Gateway.ChatMessagePrecedence | services/chatbotService.ts:31-41 | on a non-ok reply the message is `error`, else `message`, else "Something went wrong" |
| AuthService.Login | services/authService.ts:55-68 | the credentials are posted to `/auth/signin`; the store changes only when the reply succeeds and carries a non-empty token, and then holds that token and the user's record with every other key untouched; a failing store makes the call reject and writes nothing |
| AuthService.LoginEstablishesSession | services/authService.ts:55-68 | after a token-bearing sign-in the session reads as authenticated, the stored user is the reply's user, and token-gated calls go through |
| AuthService.Signup | services/authService.ts:70-75 | the account, as given, is posted to `/auth/signup` without a token, and the call succeeds exactly on an ok reply |
| AuthService.Logout | services/authService.ts:77-97 | the server is told only when a usable token is stored; its answer is ignored; with a working store both session keys end absent and every other key is kept; only a failing store makes the call reject |
| AuthService.LogoutEndsSession | services/authService.ts:77-97 | after sign-out the session is not authenticated, no user is stored, and a token-gated call fails with "No authentication token found" without a request |
| AuthService.LoginLogoutTouchesOnlySession | services/authService.ts:62-65 | signing in and then out leaves the store as it was, minus the two session keys |
| AuthService.TokenGated | services/authService.ts:99-111 | a request is sent exactly when a usable token is stored, carrying that token; otherwise the call fails first with the store's error or "No authentication token found" |
| AuthService.GetProfile | services/authService.ts:99-111 | without a token no request is made and the call fails; with one, `/auth/profile` is requested and the call settles as the request wrapper does |
| AuthService.GetStudentProfile | services/authService.ts:162-174 | without a token no request is made and the call fails; with one, `/api/student/profile` is requested and the call settles as the request wrapper does |
| AuthService.GetDashboardData | services/authService.ts:145-160 | token-gated like the others; it succeeds exactly on an ok reply to a sent request and otherwise fails with the request wrapper's message; it resolves to the reply's `data` field when present and to the whole body otherwise |
| AuthService.ForgotPassword | services/authService.ts:113-118 | the untouched address is posted to `/auth/forgot-password` without a token; an ok reply resolves to its body (which may carry a reset token), and a failure carries the wrapper's message |
| AuthService.ResetPassword | services/authService.ts:120-125 | the reset token and new password are posted to `/auth/reset-password`; an ok reply resolves to its body, and a failure carries the wrapper's message |
| AuthService.IsAuthenticated | services/authService.ts:127-134 | true exactly when the store works and has an `authToken` key, whatever its text |
| AuthService.GetStoredUserData | services/authService.ts:136-143 | a user is returned only from a working store whose `userData` key holds that serialised record; missing, empty or unparseable text gives nothing |
| ChatbotService.SendMessage | services/chatbotService.ts:44-51 | the text is posted to `/chat`; an ok reply resolves to its body; a non-ok reply fails with its `error`, else its `message`, else "Something went wrong"; a non-JSON body fails with the parse error and a rejection with its message |
| ChatbotService.SaveChatHistory | services/chatbotService.ts:54-60 | with a working store the transcript is stored under `chatHistory`; a failing store is swallowed and nothing changes; no other key changes |
| ChatbotService.GetChatHistory | services/chatbotService.ts:63-71 | a non-empty result is exactly the transcript stored under `chatHistory`; a missing key or failing store gives an empty list |
| ChatbotService.ClearChatHistory | services/chatbotService.ts:74-80 | with a working store the key is removed; a failing store is swallowed; no other key changes |
| ChatbotService.SaveThenLoad | services/chatbotService.ts:54-71 | saving and then loading gives back the same messages in the same order |
| ChatbotService.ClearThenLoad | services/chatbotService.ts:63-80 | clearing and then loading gives an empty list, whether or not the store works |
| ChatbotService.GenerateMessageId | services/chatbotService.ts:83-85 | the identifier is the clock reading's decimal text followed by at most nine characters, all base-36 digits when the random text has the form `toString(36)` gives |
| ChatbotService.IdStartsWithClock | services/chatbotService.ts:83-85 | the clock reading can be read back from the identifier's front |
| ResetPassword.ValidatePassword | components/auth/ResetPassword.tsx:26-37 | fewer than 8 characters gives the length message whatever else holds; otherwise a failing case lookahead gives the case message; otherwise a missing digit gives the digit message; no message means the password is strong |
| ResetPassword.DigitRuleIffHasDigit | components/auth/ResetPassword.tsx:33-35 | the digit lookahead holds exactly when the password contains a digit |
| ResetPassword.CaseRuleOnOneLine | components/auth/ResetPassword.tsx:30-32 | on a single line the case lookaheads hold exactly when there is both a lower-case and an upper-case letter |
| ResetPassword.ValidateAcceptsExactlyStrong | components/auth/ResetPassword.tsx:26-37 | for a password without line breaks, no message is returned exactly when it has 8 characters, a lower-case letter, an upper-case letter and a digit |
| ResetPassword.LettersOnSeparateLinesRefused | components/auth/ResetPassword.tsx:30-32 | a nine-character password with both letter cases and a digit is refused with the case message when the cases are on different lines |
| ResetPassword.HandleReset | components/auth/ResetPassword.tsx:39-83 | checks run blank-after-trim, then strength of the untrimmed text, then confirmation; a refused form is unchanged and sends nothing; an accepted form keeps both fields; without a reset token the form is marked reset with no request; with one the reset is requested, the form is marked reset only on success, and the alert is the success message or 'Reset Failed' with the error's message; any request implies a strong, confirmed password |
| ForgotPassword.HandleSubmit | components/auth/ForgotPassword.tsx:23-68 | a blank address is refused before the `@` check; neither refusal sends a request; an accepted address is posted as typed and always ends submitted, with the demo alert when the request fails; the reset token is handed on exactly when the request succeeds, the reply has a token and a callback was given |
| ForgotPassword.SubmittedIffAccepted | components/auth/ForgotPassword.tsx:23-68 | the form ends submitted, and a request is sent, exactly when the address passes both checks |
| LoginScreen.LoginDataFor | components/auth/LoginScreen.tsx:37-41 | the identifier is sent as `email` exactly when it contains `@` and as `userId` otherwise, unchanged, with the password |
| LoginScreen.OneIdentifierField | components/auth/LoginScreen.tsx:37-41 | exactly one identifier field is set and it carries the text as typed |
| LoginScreen.RouteFor | components/auth/LoginScreen.tsx:51-58 | role "counselor" leads to the counselor dashboard and every other role to the student dashboard |
| LoginScreen.HandleSignIn | components/auth/LoginScreen.tsx:28-71 | an empty field (untrimmed) gives the error alert and no request; otherwise sign-in is requested, the fields are kept, loading ends false and the store is exactly what `login` left; navigation is offered exactly when sign-in succeeds, routed by the reply's role with a greeting by name; a failed sign-in shows 'Login Failed' with the error's message |
| Chatbot.Persist | components/Chatbot.tsx:31-35 | the save-on-change effect stores a non-empty transcript, leaves an empty one unsaved and touches no other key |
| Chatbot.LoadChatHistory | components/Chatbot.tsx:37-55 | an empty stored history becomes exactly one assistant welcome message; a non-empty one is shown as stored, in order; afterwards the store holds what is shown, and its fault state and every key but `chatHistory` are unchanged |
| Chatbot.Send | components/Chatbot.tsx:57-94 | blank input or a send in flight changes nothing and sends nothing; otherwise the transcript keeps its old messages and gains exactly two: the user's trimmed text, then one assistant message (identifier and timestamp from its own clock reading) holding the reply or the fixed apology; the input is cleared, loading ends false, the store holds the new transcript, and its fault state and every key but `chatHistory` are unchanged |
| Chatbot.SendAppendsOnly | components/Chatbot.tsx:67-90 | the old transcript is always a prefix of the new one |
| Chatbot.ReloadAfterSend | components/Chatbot.tsx:31-51 | reopening the panel after a send shows the same transcript |
| Chatbot.TakeTurn | components/Chatbot.tsx:57-94 | one typed-and-sent turn keeps the old transcript as a prefix, adds at most two messages, leaves no send in flight and keeps a mirrored store mirrored |
| Chatbot.ConverseKeepsStoreInStep | components/Chatbot.tsx:31-94 | over any sequence of typed-and-sent messages the old transcript stays a prefix, each turn adds at most two messages, no send is left in flight, and a working store keeps holding the transcript on screen |
| Chatbot.ClearHistory | components/Chatbot.tsx:96-118 | a cancelled dialog changes nothing; a confirmed one leaves exactly one assistant welcome message, which the store then holds, with its fault state and every key but `chatHistory` unchanged |
| Chatbot.ClearedTranscriptIsReloaded | components/Chatbot.tsx:31-35 | after a confirmed clear the store holds the new welcome message, and reloading shows it rather than the first-visit greeting |
| CounselorDashboard.HeadsOfSplit | components/CounselorDashboard.tsx:187-190 | splitting at spaces and taking first characters yields exactly the word-initial characters of the name, in order |
| CounselorDashboard.GetInitials | components/CounselorDashboard.tsx:186-193 | at most two characters: the upper-cased word-initial characters of the name, in order; repeated spaces contribute nothing |
| CounselorDashboard.GetAvatarColor | components/CounselorDashboard.tsx:195-208 | a non-empty name gets the colour at its first UTF-16 code unit modulo 8, always one of the eight; an empty name gets none |
| CounselorDashboard.SameFirstCharSameColor | components/CounselorDashboard.tsx:206-207 | names with the same first character get the same colour |
| CounselorDashboard.GetRiskBadgeColor | components/CounselorDashboard.tsx:210-216 | the badge shows the bucket of the first matching rule on the lower-cased label: "low risk"/"safe", then "medium risk"/"warning", then "high risk"/"at risk", else gray |
| CounselorDashboard.GetRiskIcon | components/CounselorDashboard.tsx:218-224 | the icon shows the bucket of the same rule |
| CounselorDashboard.IconMatchesBadge | components/CounselorDashboard.tsx:210-224 | a label's icon and badge always show the same bucket |
| CounselorDashboard.RiskLevelIgnoresCase | components/CounselorDashboard.tsx:211 | upper- or lower-casing a label does not change the bucket it falls in |
| CounselorDashboard.BadgeIgnoresCase | components/CounselorDashboard.tsx:211 | upper- or lower-casing a label does not change its badge |
| CounselorDashboard.GetAttendanceBarColor | components/CounselorDashboard.tsx:226-230 | green exactly from 80, yellow exactly from 60 below 80, red exactly below 60 |
| CounselorDashboard.BarColorMonotone | components/CounselorDashboard.tsx:226-230 | more attendance never gives a worse colour |
| CounselorDashboard.LoadCounselorData | components/CounselorDashboard.tsx:153-173 | a successful fetch is shown with the demo flag off and no alert; a failure shows the demo roster with the flag on and one demo-data alert; loading ends false either way |
| CounselorDashboard.HandleRefresh | components/CounselorDashboard.tsx:175-179 | a refresh reloads and ends with both spinners off; it shows the fetched roster on success, and on failure the demo roster with demo mode on and the demo-data alert |
| CounselorDashboard.DemoFlagTellsSource | components/CounselorDashboard.tsx:153-179 | unless the server sends the demo roster itself, after a load or a refresh the demo flag is on exactly when the demo roster is shown |
| CounselorDashboard.TodayAlwaysDemo | components/CounselorDashboard.tsx:153-173 | with the service as written, where the roster call throws, every load and refresh shows the demo roster in demo mode with the demo-data alert |
| CounselorDashboard.MockSummaryMatchesRoster | components/CounselorDashboard.tsx:61-144 | the demo students' labels fall 1 / 2 / 2 into safe / warning / at-risk, matching the summary's counts, adding up to its 5 students, with each distribution entry the count's share in percent |
| CounselorDashboard.MockAveragesAgainstRoster | components/CounselorDashboard.tsx:67-132 | the demo summary's attendance is the students' mean, while its GPA of 2.6 differs from their mean of 2.76 |
| Dashboard.LoadDashboardData | components/Dashboard.tsx:94-118 | loading ends false; the stored user is read; no alert is ever raised; the request is exactly the one `getDashboardData` sends; without a token or on a failed fetch the demo analytics are shown; on success the reply's `data` or whole body is shown |
| Dashboard.HandleRefresh | components/Dashboard.tsx:120-124 | a refresh re-runs the load: the same data, the same request, the stored user re-read, no alert, and both spinners off |
| Dashboard.HandleLogout | components/Dashboard.tsx:126-147 | a cancelled dialog does nothing; once confirmed, `onLogout` runs whatever `logout` does, and the store and request are exactly those of the service's `logout`, so with a working store the session is gone and every other key is kept |
| Dashboard.Indicator | components/Dashboard.tsx:211-217 | the number shown is the change, or the demo value when the change is missing or zero; the up arrow, green tone and `+` prefix appear exactly when that number is positive |
| Dashboard.View | components/Dashboard.tsx:206-343 | each figure is the fetched value unless missing or zero, in which case it is the demo figure ('3.42', 87, 2.3, -1.5); both change indicators are those of the shown numbers; the risk slices and trends fall back on the demo series only when missing; the month labels, GPA series and attendance series are the trends' fields item by item |
| Dashboard.ZeroShowsDemoFigures | components/Dashboard.tsx:207-232 | a real zero GPA change shows as an upward `+2.3`, a zero average GPA as '3.42' and a zero attendance as 87 |
| Dashboard.FallbackDisplaysDemo | components/Dashboard.tsx:103-117 | a load that fell back displays the demo figures, slices and months |

## Left out

- Rendering, styling, charts, scrolling, `toLocaleTimeString` and the UI kit under `components/ui/` (class-name assembly through a helper that is not part of this model).
- `create-demo-user.js`, a one-off script that talks to the network.
- `fetch`, JSON encoding and AsyncStorage's I/O: remote outcomes are `Transport` inputs, and the store is a map with a fault flag.
- The loading spinners' intermediate values during an `await`. Only the state after each handler settles is modelled.
- Overlapping refreshes and other async interleavings, and a screen unmounting while a request is pending.
- `Math.random` and `Date.now`: they are inputs. Identifier uniqueness is not claimed, because the code does not guarantee it.
- `getCounselorDashboard`: it is not defined in services/authService.ts, so the counselor screen receives its outcome as an input.
- ResetPassword.ValidatePassword: the length is counted in characters, not UTF-16 code units, so a character outside the basic plane counts once instead of twice.
- CounselorDashboard.GetInitials: upper-casing covers ASCII letters only, and the two-character cut counts characters, not UTF-16 code units.
- CounselorDashboard.GetRiskBadgeColor: lower-casing covers ASCII letters only.
- CounselorDashboard.GetRiskIcon: lower-casing covers ASCII letters only.
- ChatbotService.GetChatHistory: a `chatHistory` key holding a JSON document that is not a transcript is read as an empty history. The code would hand that document to the screen.
- LoginScreen.HandleSignIn: a successful sign-in reply always carries a `user`, as its declared response type says. A reply without one, which would make the greeting throw, is not modelled.
- Chatbot.Send: each new message takes its identifier and timestamp from one clock reading, where the code reads the clock twice.
- Dashboard.View: numbers are reals, so `NaN`, which is also falsy, is not modelled.
- Storage writes inside `login` are modelled as all-or-nothing: a store that fails rejects the first write.

=== FILE: auth_service.dfy ===
/** The authentication service: sign-in, sign-out and the token-gated
    calls, over the device store and the request wrapper. */
module AuthService {
  import opened Wrappers
  import opened Domain
  import opened Storage
  import opened Gateway
  import opened Analytics

  const SignInPath: string := "/auth/signin"
  const SignUpPath: string := "/auth/signup"
  const LogoutPath: string := "/auth/logout"
  const ProfilePath: string := "/auth/profile"
  const ForgotPasswordPath: string := "/auth/forgot-password"
  const ResetPasswordPath: string := "/auth/reset-password"
  const DashboardPath: string := "/api/dashboard"
  const StudentProfilePath: string := "/api/student/profile"

  const NoTokenMessage: string := "No authentication token found"

  /** The body of a successful sign-in reply (`LoginResponse`). */
  datatype SignInReply = SignInReply(message: Option<string>, user: User, token: Option<string>)

  /** The body of the dashboard reply: an optional `data` field, and the
      analytics fields found at the top level of the body itself. */
  datatype DashboardReply = DashboardReply(data: Option<DashboardData>, topLevel: DashboardData)

  /** One service call: the request it sent, if any, and how it settled. */
  datatype Call<T> = Call(request: Option<Request>, result: Result<T>)

  /** A service call that may also write to the device store. */
  datatype StoreCall<T> = StoreCall(call: Call<T>, store: Store)

  /** The session token the store holds, if it holds a usable one. */
  predicate HasToken(st: Store) {
    st.fault.None? && AuthTokenKey in st.entries && StoredTruthy(st.entries[AuthTokenKey])
  }

  /** `login`: post the credentials; when the reply carries a token, store
      it and the user's record. */
  function Login(st: Store, data: LoginData, t: Transport<SignInReply>): (r: StoreCall<SignInReply>)
    ensures r.call.request == Some(Request(Post, SignInPath, None, SignInPayload(data)))
    ensures AuthOutcome(t).Failure? ==> r.call.result == AuthOutcome(t) && r.store == st
    ensures AuthOutcome(t).Success? && !Truthy(AuthOutcome(t).value.token) ==>
              r.call.result == AuthOutcome(t) && r.store == st
    ensures r.store != st ==> AuthOutcome(t).Success? && Truthy(AuthOutcome(t).value.token)
    ensures AuthOutcome(t).Success? && Truthy(AuthOutcome(t).value.token) && st.fault.Some? ==>
              r.call.result == Failure(st.fault.value) && r.store == st
    ensures AuthOutcome(t).Success? && Truthy(AuthOutcome(t).value.token) && st.fault.None? ==>
              && r.call.result == AuthOutcome(t)
              && AuthTokenKey in r.store.entries && UserDataKey in r.store.entries
              && r.store.entries[AuthTokenKey] == Plain(AuthOutcome(t).value.token.value)
              && r.store.entries[UserDataKey] == Serialized(UserJson(AuthOutcome(t).value.user))
              && forall k :: k != AuthTokenKey && k != UserDataKey ==> Unchanged(st, r.store, k)
  {
    var request := Some(Request(Post, SignInPath, None, SignInPayload(data)));
    match AuthOutcome(t)
    case Failure(e) => StoreCall(Call(request, Failure(e)), st)
    case Success(reply) =>
      if !Truthy(reply.token) then StoreCall(Call(request, Success(reply)), st)
      else match SetItem(st, AuthTokenKey, Plain(reply.token.value))
        case Failure(e) => StoreCall(Call(request, Failure(e)), st)
        case Success(st1) =>
          match SetItem(st1, UserDataKey, Serialized(UserJson(reply.user)))
          case Failure(e) => StoreCall(Call(request, Failure(e)), st1)
          case Success(st2) => StoreCall(Call(request, Success(reply)), st2)
  }

  /** `signup`: post the new account as given; nothing is stored. */
  function Signup<B>(data: SignupData, t: Transport<B>): (r: Call<B>)
    ensures r.request == Some(Request(Post, SignUpPath, None, SignupPayload(data)))
    ensures r.result.Success? <==> t.Answered? && t.ok
    ensures r.result.Success? ==> r.result.value == t.body
  {
    Call(Some(Request(Post, SignUpPath, None, SignupPayload(data))), AuthOutcome(t))
  }

  /** `logout`: tell the server when a token is stored, ignore any error
      from doing so, and then always remove the token and the user record.
      Only a failing store makes the call reject. */
  function Logout<B>(st: Store, t: Transport<B>): (r: StoreCall<()>)
    ensures r.call.request.Some? <==> HasToken(st)
    ensures r.call.request.Some? ==>
              r.call.request.value == Request(Post, LogoutPath, Some(st.entries[AuthTokenKey]), NoPayload)
    ensures st.fault.None? ==> r.call.result.Success?
    ensures st.fault.None? ==> AuthTokenKey !in r.store.entries && UserDataKey !in r.store.entries
    ensures st.fault.None? ==> forall k :: k != AuthTokenKey && k != UserDataKey ==> Unchanged(st, r.store, k)
    ensures st.fault.Some? ==> r.call.result == Failure(st.fault.value) && r.store == st
  {
    // The remote outcome is deliberately discarded: the error is only logged.
    var request :=
      match GetItem(st, AuthTokenKey)
      case Success(Some(token)) =>
        if StoredTruthy(token) then Some(Request(Post, LogoutPath, Some(token), NoPayload)) else None
      case _ => None;
    match RemoveItem(st, AuthTokenKey)
    case Failure(e) => StoreCall(Call(request, Failure(e)), st)
    case Success(st1) =>
      match RemoveItem(st1, UserDataKey)
      case Failure(e) => StoreCall(Call(request, Failure(e)), st1)
      case Success(st2) => StoreCall(Call(request, Success(())), st2)
  }

  /** The guard every authenticated call starts with: read the token and
      fail before any request when there is none; otherwise send a `GET`
      carrying it. The store is never changed. */
  function TokenGated<B>(st: Store, path: string, t: Transport<B>): (r: Call<B>)
    ensures r.request.Some? <==> HasToken(st)
    ensures st.fault.Some? ==> r.result == Failure(st.fault.value)
    ensures st.fault.None? && !HasToken(st) ==> r.result == Failure(NoTokenMessage)
    ensures HasToken(st) ==>
              && r.request == Some(Request(Get, path, Some(st.entries[AuthTokenKey]), NoPayload))
              && r.result == AuthOutcome(t)
  {
    match GetItem(st, AuthTokenKey)
    case Failure(e) => Call(None, Failure(e))
    case Success(token) =>
      if token.None? || !StoredTruthy(token.value) then Call(None, Failure(NoTokenMessage))
      else Call(Some(Request(Get, path, token, NoPayload)), AuthOutcome(t))
  }

  /** `getProfile`. */
  function GetProfile<B>(st: Store, t: Transport<B>): (r: Call<B>)
    ensures !HasToken(st) ==> r.request.None? && r.result.Failure?
    ensures st.fault.None? && !HasToken(st) ==> r.result == Failure(NoTokenMessage)
    ensures HasToken(st) ==> r.request.Some? && r.request.value.path == ProfilePath
    ensures HasToken(st) ==> r.result == AuthOutcome(t)
  {
    TokenGated(st, ProfilePath, t)
  }

  /** `getStudentProfile`. */
  function GetStudentProfile<B>(st: Store, t: Transport<B>): (r: Call<B>)
    ensures !HasToken(st) ==> r.request.None? && r.result.Failure?
    ensures st.fault.None? && !HasToken(st) ==> r.result == Failure(NoTokenMessage)
    ensures HasToken(st) ==> r.request.Some? && r.request.value.path == StudentProfilePath
    ensures HasToken(st) ==> r.result == AuthOutcome(t)
  {
    TokenGated(st, StudentProfilePath, t)
  }

  /** `getDashboardData`: the token-gated fetch, resolving to the reply's
      `data` field when it has one and to the whole body otherwise. */
  function GetDashboardData(st: Store, t: Transport<DashboardReply>): (r: Call<DashboardData>)
    ensures !HasToken(st) ==> r.request.None? && r.result.Failure?
    ensures st.fault.None? && !HasToken(st) ==> r.result == Failure(NoTokenMessage)
    ensures HasToken(st) ==> r.request.Some? && r.request.value.path == DashboardPath
    ensures r.result.Success? <==> HasToken(st) && t.Answered? && t.ok
    ensures HasToken(st) && AuthOutcome(t).Failure? ==> r.result == Failure(AuthOutcome(t).error)
    ensures r.result.Success? && t.body.data.Some? ==> r.result.value == t.body.data.value
    ensures r.result.Success? && t.body.data.None? ==> r.result.value == t.body.topLevel
  {
    var c := TokenGated(st, DashboardPath, t);
    match c.result
    case Failure(e) => Call(c.request, Failure(e))
    case Success(reply) =>
      Call(c.request, Success(if reply.data.Some? then reply.data.value else reply.topLevel))
  }

  /** `forgotPassword`: post the address; nothing is stored. */
  function ForgotPassword<B>(email: string, t: Transport<B>): (r: Call<B>)
    ensures r.request == Some(Request(Post, ForgotPasswordPath, None, EmailPayload(email)))
    ensures r.result.Success? <==> t.Answered? && t.ok
    ensures r.result.Success? ==> r.result.value == t.body
    ensures r.result.Failure? ==> r.result.error == AuthOutcome(t).error
  {
    Call(Some(Request(Post, ForgotPasswordPath, None, EmailPayload(email))), AuthOutcome(t))
  }

  /** `resetPassword`: post the reset token and the new password. */
  function ResetPassword<B>(token: string, newPassword: string, t: Transport<B>): (r: Call<B>)
    ensures r.request == Some(Request(Post, ResetPasswordPath, None, ResetPayload(token, newPassword)))
    ensures r.result.Success? <==> t.Answered? && t.ok
    ensures r.result.Success? ==> r.result.value == t.body
    ensures r.result.Failure? ==> r.result.error == AuthOutcome(t).error
  {
    Call(Some(Request(Post, ResetPasswordPath, None, ResetPayload(token, newPassword))), AuthOutcome(t))
  }

  /** `isAuthenticated`: a token key is present (whatever its text); a
      failing store reads as signed out. */
  function IsAuthenticated(st: Store): (b: bool)
    ensures b <==> st.fault.None? && AuthTokenKey in st.entries
  {
    match GetItem(st, AuthTokenKey)
    case Success(token) => token.Some?
    case Failure(_) => false
  }

  /** `getStoredUserData`: the parsed user record, or nothing when the key
      is missing, empty or unparseable, or the store fails. */
  function GetStoredUserData(st: Store): (r: Option<Json>)
    ensures r.Some? ==> st.fault.None? && UserDataKey in st.entries
    ensures r.Some? ==> st.entries[UserDataKey] == Serialized(r.value)
  {
    match GetItem(st, UserDataKey)
    case Success(Some(v)) => if StoredTruthy(v) then ParseJson(v) else None
    case _ => None
  }

  /** After a sign-in whose reply carried a token, the store reports the
      session as authenticated, hands back the signed-in user, and lets the
      token-gated calls through. */
  lemma {:induction false} LoginEstablishesSession(st: Store, data: LoginData, t: Transport<SignInReply>)
    requires st.fault.None?
    requires t.Answered? && t.ok && Truthy(t.body.token)
    ensures var after := Login(st, data, t).store;
            && IsAuthenticated(after)
            && GetStoredUserData(after) == Some(UserJson(t.body.user))
            && HasToken(after)
  {
    var after := Login(st, data, t).store;
    assert after.entries[AuthTokenKey] == Plain(t.body.token.value);
    assert after.entries[UserDataKey] == Serialized(UserJson(t.body.user));
  }

  /** After a sign-out with a working store the session is gone: not
      authenticated, no stored user, and every token-gated call fails with
      the missing-token error before sending anything. */
  lemma LogoutEndsSession<B, C>(st: Store, t: Transport<B>, next: Transport<C>, path: string)
    requires st.fault.None?
    ensures var after := Logout(st, t).store;
            && !IsAuthenticated(after)
            && GetStoredUserData(after).None?
            && TokenGated(after, path, next) == Call(None, Failure(NoTokenMessage))
  {
  }

  /** Signing in and then out leaves the rest of the store as it was: only
      the two session keys are touched, and both end up absent. */
  lemma {:induction false} LoginLogoutTouchesOnlySession<B>(st: Store, data: LoginData, t: Transport<SignInReply>, out: Transport<B>)
    requires st.fault.None?
    ensures var after := Logout(Login(st, data, t).store, out).store;
            after.entries == st.entries - {AuthTokenKey, UserDataKey}
  {
    var mid := Login(st, data, t).store;
    var after := Logout(mid, out).store;
    assert mid.fault.None?;
    forall k | k != AuthTokenKey && k != UserDataKey
      ensures Unchanged(st, after, k)
    {
      assert Unchanged(st, mid, k);
      assert Unchanged(mid, after, k);
    }
  }
}

=== FILE: chatbot.dfy ===
/** The chat panel as a transcript state machine. Each transition also
    runs the effect that saves a non-empty transcript whenever it changes,
    so a session pairs the screen with the device store. */
module Chatbot {
  import opened Wrappers
  import opened Text
  import opened Domain
  import opened Storage
  import opened Gateway
  import opened ChatbotService

  const FirstWelcome: string :=
    "Hi! I'm your counselling assistant. I'm here to help you with any concerns about your studies, stress management, or just to chat. How are you feeling today?"
  const ClearedWelcome: string := "Hi! I'm your counselling assistant. How can I help you today?"
  const Apology: string := "I'm sorry, I'm having trouble connecting right now. Please try again later."

  datatype ChatScreen = ChatScreen(messages: seq<ChatMessage>, inputText: string, isLoading: bool)

  datatype ChatSession = ChatSession(screen: ChatScreen, store: Store)

  /** One clock reading and the text of one random number: what a new
      message's identifier and timestamp are made from. */
  datatype Tick = Tick(now: nat, randomText: string)

  function NewMessage(text: string, isUser: bool, tick: Tick): ChatMessage {
    ChatMessage(GenerateMessageId(tick.now, tick.randomText), text, isUser, tick.now)
  }

  /** The store holds the transcript on screen, whenever there is one to
      hold and the store works. */
  predicate Mirrors(s: ChatSession) {
    s.store.fault.None? && |s.screen.messages| > 0 ==> GetChatHistory(s.store) == s.screen.messages
  }

  /** The persist-on-change effect: save the transcript when it is not
      empty. */
  function Persist(s: ChatSession): (r: ChatSession)
    ensures r.screen == s.screen
    ensures Mirrors(r)
    ensures |s.screen.messages| == 0 ==> r == s
    ensures forall k :: k != ChatHistoryKey ==> Unchanged(s.store, r.store, k)
  {
    if |s.screen.messages| > 0 then s.(store := SaveChatHistory(s.store, s.screen.messages)) else s
  }

  /** Replace the transcript, then run the effect. */
  function SetMessages(s: ChatSession, messages: seq<ChatMessage>): (r: ChatSession)
    ensures r.screen == s.screen.(messages := messages)
    ensures Mirrors(r)
    ensures r.store.fault == s.store.fault
    ensures forall k :: k != ChatHistoryKey ==> Unchanged(s.store, r.store, k)
  {
    Persist(s.(screen := s.screen.(messages := messages)))
  }

  /** `loadChatHistory`: an empty stored history is replaced by a single
      welcome message from the assistant; otherwise the stored messages are
      shown in their stored order. */
  function LoadChatHistory(s: ChatSession, tick: Tick): (r: ChatSession)
    ensures |GetChatHistory(s.store)| == 0 ==>
              r.screen.messages == [NewMessage(FirstWelcome, false, tick)]
    ensures |GetChatHistory(s.store)| > 0 ==> r.screen.messages == GetChatHistory(s.store)
    ensures r.screen.inputText == s.screen.inputText && r.screen.isLoading == s.screen.isLoading
    ensures Mirrors(r)
    ensures r.store.fault == s.store.fault
    ensures forall k :: k != ChatHistoryKey ==> Unchanged(s.store, r.store, k)
  {
    var history := GetChatHistory(s.store);
    if |history| == 0 then SetMessages(s, [NewMessage(FirstWelcome, false, tick)])
    else SetMessages(s, history)
  }

  /** Two stores agreeing on every key but the chat history, chained. */
  lemma HistoryOnlyChain(a: Store, b: Store, c: Store)
    requires a.fault == b.fault && forall k :: k != ChatHistoryKey ==> Unchanged(a, b, k)
    requires b.fault == c.fault && forall k :: k != ChatHistoryKey ==> Unchanged(b, c, k)
    ensures a.fault == c.fault && forall k :: k != ChatHistoryKey ==> Unchanged(a, c, k)
  {
    forall k | k != ChatHistoryKey
      ensures Unchanged(a, c, k)
    {
      assert Unchanged(a, b, k) && Unchanged(b, c, k);
    }
  }

  /** `sendMessage` guard: blank input or a send in flight. */
  predicate SendBlocked(s: ChatScreen) {
    Blank(s.inputText) || s.isLoading
  }

  /** A send: the session afterwards and the chat request it made. */
  datatype SendStep = SendStep(session: ChatSession, request: Option<Request>)

  /** `sendMessage`: when not blocked, append the trimmed input as the
      user's message, clear the input, ask the server, and append exactly
      one assistant message: the reply, or the fixed apology when the
      request fails. */
  function Send(s: ChatSession, t: Transport<ChatReply>, userTick: Tick, botTick: Tick): (r: SendStep)
    ensures SendBlocked(s.screen) ==> r == SendStep(s, None)
    ensures !SendBlocked(s.screen) ==>
              && |r.session.screen.messages| == |s.screen.messages| + 2
              && r.session.screen.messages[..|s.screen.messages|] == s.screen.messages
              && r.session.screen.messages[|s.screen.messages|] == NewMessage(Trim(s.screen.inputText), true, userTick)
              && r.session.screen.messages[|s.screen.messages| + 1] ==
                   NewMessage(if t.Answered? && t.ok then t.body.reply else Apology, false, botTick)
              && r.session.screen.inputText == ""
              && !r.session.screen.isLoading
              && r.request == Some(Request(Post, ChatPath, None, MessagePayload(Trim(s.screen.inputText))))
    ensures !SendBlocked(s.screen) ==> Mirrors(r.session)
    ensures r.session.store.fault == s.store.fault
    ensures forall k :: k != ChatHistoryKey ==> Unchanged(s.store, r.session.store, k)
  {
    if SendBlocked(s.screen) then SendStep(s, None)
    else
      var userMessage := NewMessage(Trim(s.screen.inputText), true, userTick);
      var s1 := SetMessages(s, s.screen.messages + [userMessage]);
      var s2 := s1.(screen := s1.screen.(inputText := "", isLoading := true));
      var (request, outcome) := SendMessage(userMessage.message, t);
      var text := match outcome case Success(reply) => reply.reply case Failure(_) => Apology;
      var s3 := SetMessages(s2, s2.screen.messages + [NewMessage(text, false, botTick)]);
      HistoryOnlyChain(s.store, s1.store, s3.store);
      SendStep(s3.(screen := s3.screen.(isLoading := false)), request)
  }

  /** `clearHistory`. `confirmed` is the user's answer to the confirmation
      dialog. On confirmation the stored history is removed and the
      transcript becomes one welcome message, which the effect then saves. */
  function ClearHistory(s: ChatSession, confirmed: bool, tick: Tick): (r: ChatSession)
    ensures !confirmed ==> r == s
    ensures confirmed ==> r.screen.messages == [NewMessage(ClearedWelcome, false, tick)]
    ensures confirmed ==> r.screen.inputText == s.screen.inputText && r.screen.isLoading == s.screen.isLoading
    ensures confirmed ==> Mirrors(r)
    ensures r.store.fault == s.store.fault
    ensures forall k :: k != ChatHistoryKey ==> Unchanged(s.store, r.store, k)
  {
    if !confirmed then s
    else SetMessages(s.(store := ClearChatHistory(s.store)), [NewMessage(ClearedWelcome, false, tick)])
  }

  /** The transcript only grows by a send: what was on screen stays, in
      order, as a prefix. */
  lemma SendAppendsOnly(s: ChatSession, t: Transport<ChatReply>, userTick: Tick, botTick: Tick)
    ensures s.screen.messages <= Send(s, t, userTick, botTick).session.screen.messages
  {
  }

  /** After a confirmed clear the store does not stay empty: the effect
      writes the new welcome message back, and reopening the panel shows
      that message rather than the first-visit greeting. */
  lemma ClearedTranscriptIsReloaded(s: ChatSession, tick: Tick, later: Tick)
    requires s.store.fault.None?
    ensures var cleared := ClearHistory(s, true, tick);
            && GetChatHistory(cleared.store) == [NewMessage(ClearedWelcome, false, tick)]
            && LoadChatHistory(cleared, later).screen.messages == [NewMessage(ClearedWelcome, false, tick)]
  {
  }

  /** Reopening the panel after a send shows the same transcript: the
      store round-trips it in order. */
  lemma {:induction false} ReloadAfterSend(s: ChatSession, t: Transport<ChatReply>, userTick: Tick, botTick: Tick, later: Tick)
    requires s.store.fault.None?
    requires !SendBlocked(s.screen)
    ensures var after := Send(s, t, userTick, botTick).session;
            LoadChatHistory(after, later).screen.messages == after.screen.messages
  {
    var after := Send(s, t, userTick, botTick).session;
    assert after.store.fault.None?;
    assert |after.screen.messages| > 0;
    assert GetChatHistory(after.store) == after.screen.messages;
  }

  /** One turn of a conversation: what the user types, the server's answer
      and the two clock readings of the messages it adds. */
  datatype Turn = Turn(typed: string, answer: Transport<ChatReply>, userTick: Tick, botTick: Tick)

  /** Type the turn's text into the input and press send. The old
      transcript stays a prefix and at most two messages are added; a
      session whose store held its transcript still does. */
  function TakeTurn(s: ChatSession, turn: Turn): (r: ChatSession)
    ensures s.screen.messages <= r.screen.messages
    ensures |r.screen.messages| <= |s.screen.messages| + 2
    ensures !s.screen.isLoading ==> !r.screen.isLoading
    ensures r.store.fault == s.store.fault
    ensures Mirrors(s) && !s.screen.isLoading ==> Mirrors(r)
  {
    var typed := s.(screen := s.screen.(inputText := turn.typed));
    assert Mirrors(s) ==> Mirrors(typed);
    Send(typed, turn.answer, turn.userTick, turn.botTick).session
  }

  /** A conversation: one turn after another. */
  function Converse(s: ChatSession, turns: seq<Turn>): ChatSession
    decreases |turns|
  {
    if |turns| == 0 then s else Converse(TakeTurn(s, turns[0]), turns[1..])
  }

  /** Over any conversation the transcript only grows, by at most two
      messages a turn, no send is left in flight, and the store keeps
      holding what is on screen. */
  lemma {:induction false} ConverseKeepsStoreInStep(s: ChatSession, turns: seq<Turn>)
    requires Mirrors(s) && !s.screen.isLoading
    ensures var after := Converse(s, turns);
            && s.screen.messages <= after.screen.messages
            && |after.screen.messages| <= |s.screen.messages| + 2 * |turns|
            && !after.screen.isLoading
            && after.store.fault == s.store.fault
            && Mirrors(after)
    decreases |turns|
  {
    if |turns| > 0 {
      ConverseKeepsStoreInStep(TakeTurn(s, turns[0]), turns[1..]);
    }
  }
}

=== FILE: chatbot_service.dfy ===
/** The chatbot service: the chat request, the stored transcript and
    message identifiers. */
module ChatbotService {
  import opened Wrappers
  import opened Text
  import opened Domain
  import opened Storage
  import opened Gateway

  const ChatPath: string := "/chat"

  /** The body of a chat reply (`ChatResponse`). */
  datatype ChatReply = ChatReply(reply: string)

  /** `sendMessage`: post the text; the reply or the rejection message. */
  function SendMessage(message: string, t: Transport<ChatReply>): (r: (Option<Request>, Result<ChatReply>))
    ensures r.0 == Some(Request(Post, ChatPath, None, MessagePayload(message)))
    ensures r.1.Success? <==> t.Answered? && t.ok
    ensures r.1.Success? ==> r.1.value == t.body
    ensures t.Answered? && !t.ok && Truthy(t.fields.error) ==> r.1 == Failure(t.fields.error.value)
    ensures t.Answered? && !t.ok && !Truthy(t.fields.error) ==>
              r.1 == Failure(OrElse(t.fields.message, GenericFailure))
    ensures t.UnparseableBody? ==> r.1 == Failure(t.syntaxError)
    ensures t.Rejected? ==> r.1 == Failure(RejectionMessage(t.thrown))
  {
    (Some(Request(Post, ChatPath, None, MessagePayload(message))), ChatOutcome(t))
  }

  /** `saveChatHistory`: store the transcript; a failing store is
      swallowed and leaves everything as it was. */
  function SaveChatHistory(st: Store, messages: seq<ChatMessage>): (r: Store)
    ensures r.fault == st.fault
    ensures st.fault.Some? ==> r == st
    ensures st.fault.None? ==> ChatHistoryKey in r.entries && r.entries[ChatHistoryKey] == Serialized(TranscriptJson(messages))
    ensures forall k :: k != ChatHistoryKey ==> Unchanged(st, r, k)
  {
    match SetItem(st, ChatHistoryKey, Serialized(TranscriptJson(messages)))
    case Success(st') => st'
    case Failure(_) => st
  }

  /** `getChatHistory`: the stored transcript, or an empty one when the key
      is missing or empty, its text does not parse, or the store fails. */
  function GetChatHistory(st: Store): (r: seq<ChatMessage>)
    ensures |r| > 0 ==> st.fault.None? && ChatHistoryKey in st.entries
                        && st.entries[ChatHistoryKey] == Serialized(TranscriptJson(r))
    ensures st.fault.Some? || ChatHistoryKey !in st.entries ==> r == []
  {
    match GetItem(st, ChatHistoryKey)
    case Success(Some(v)) =>
      if !StoredTruthy(v) then []
      else (match ParseJson(v)
        case Some(TranscriptJson(ms)) => ms
        case _ => [])
    case _ => []
  }

  /** `clearChatHistory`: remove the transcript; a failing store is
      swallowed. */
  function ClearChatHistory(st: Store): (r: Store)
    ensures r.fault == st.fault
    ensures st.fault.Some? ==> r == st
    ensures st.fault.None? ==> ChatHistoryKey !in r.entries
    ensures forall k :: k != ChatHistoryKey ==> Unchanged(st, r, k)
  {
    match RemoveItem(st, ChatHistoryKey)
    case Success(st') => st'
    case Failure(_) => st
  }

  /** Saving and then loading gives back the same messages in the same
      order. */
  lemma SaveThenLoad(st: Store, messages: seq<ChatMessage>)
    requires st.fault.None?
    ensures GetChatHistory(SaveChatHistory(st, messages)) == messages
  {
  }

  /** Clearing and then loading gives an empty transcript. */
  lemma ClearThenLoad(st: Store)
    ensures GetChatHistory(ClearChatHistory(st)) == []
  {
  }

  predicate IsBase36Digit(c: char) {
    IsAsciiDigit(c) || IsAsciiLower(c)
  }

  /** The text `Math.random().toString(36)` produces: `"0"`, or `"0."`
      followed by base-36 digits. */
  predicate IsBase36Fraction(text: string) {
    || text == "0"
    || (|text| >= 2 && text[..2] == "0." && forall i :: 2 <= i < |text| ==> IsBase36Digit(text[i]))
  }

  /** `generateMessageId`: the decimal clock reading followed by up to nine
      characters of the random number's base-36 fraction digits. The clock
      reading `now` and the text `randomText` of the random number are
      inputs. */
  function GenerateMessageId(now: nat, randomText: string): (id: string)
    ensures |NatToString(now)| <= |id| <= |NatToString(now)| + 9
    ensures id[..|NatToString(now)|] == NatToString(now)
    ensures IsBase36Fraction(randomText) ==>
              forall i :: |NatToString(now)| <= i < |id| ==> IsBase36Digit(id[i])
  {
    NatToString(now) + Substr(randomText, 2, 9)
  }

  /** The clock reading can be read back from the front of an identifier. */
  lemma IdStartsWithClock(now: nat, randomText: string)
    ensures var id := GenerateMessageId(now, randomText);
            ParseDecimal(id[..|NatToString(now)|]) == now
  {
    ParseNatToString(now);
  }
}

=== FILE: counselor_dashboard.dfy ===
/** The counselor dashboard: the roster presentation helpers, the
    load-or-demo fallback and the demo roster. */
module CounselorDashboard {
  import opened Wrappers
  import opened Text
  import opened Ui

  datatype Student = Student(
    studentId: string,
    name: string,
    course: string,
    year: int,
    currentSemester: int,
    currentGpa: real,
    currentAttendance: real,
    currentBacklogs: int,
    currentRiskStatus: string,
    totalSemesters: int)

  datatype Counselor = Counselor(userId: string, name: string, department: Option<string>)

  /** A value per risk bucket. */
  datatype Buckets<T> = Buckets(safe: T, warning: T, atRisk: T)

  datatype Summary = Summary(
    totalStudents: int,
    avgGpa: real,
    avgAttendance: real,
    riskDistribution: Buckets<real>,
    riskCounts: Buckets<int>)

  datatype CounselorData = CounselorData(counselor: Counselor, students: seq<Student>, summary: Summary)

  /** The demo roster shown whenever the roster cannot be fetched. */
  const MockCounselorData: CounselorData := CounselorData(
    Counselor("CNS001", "Dr. Sarah Wilson", Some("Computer Science")),
    [ Student("STU2024001", "Sarah Johnson", "Computer Science", 2, 3, 2.3, 65.0, 2, "High Risk", 3),
      Student("STU2024002", "Michael Chen", "Business Admin", 1, 2, 2.8, 78.0, 1, "Medium Risk", 2),
      Student("STU2024003", "Emma Wilson", "Engineering", 2, 4, 3.7, 95.0, 0, "Low Risk", 4),
      Student("STU2024004", "David Rodriguez", "Mathematics", 1, 1, 1.9, 45.0, 3, "High Risk", 1),
      Student("STU2024005", "Lisa Park", "Physics", 2, 3, 3.1, 82.0, 0, "Medium Risk", 3) ],
    Summary(5, 2.6, 73.0, Buckets(20.0, 40.0, 40.0), Buckets(1, 2, 2)))

  // ---------------------------------------------------------------- initials

  /** `parts.map(w => w[0]).join('')`: the first character of every part;
      an empty part contributes nothing. */
  function Heads(parts: seq<string>): string
    decreases |parts|
  {
    if |parts| == 0 then ""
    else (if |parts[0]| > 0 then [parts[0][0]] else "") + Heads(parts[1..])
  }

  /** The characters of `s` that begin a word: not a space, and either
      first or right after a space. `afterSpace` says whether the
      character before `s` was a space (or there was none). */
  function WordStartsFrom(s: string, afterSpace: bool): string
    decreases |s|
  {
    if |s| == 0 then ""
    else (if afterSpace && s[0] != ' ' then [s[0]] else "") + WordStartsFrom(s[1..], s[0] == ' ')
  }

  function WordStarts(s: string): string {
    WordStartsFrom(s, true)
  }

  lemma {:induction false} HeadsOfSplitTail(s: string)
    ensures Heads(Split(s, ' ')[1..]) == WordStartsFrom(s, false)
    decreases |s|
  {
    if |s| > 0 {
      var rest := Split(s[1..], ' ');
      HeadsOfSplitTail(s[1..]);
      if s[0] == ' ' {
        assert Split(s, ' ')[1..] == rest;
      } else {
        assert Split(s, ' ')[1..] == rest[1..];
      }
    }
  }

  /** Splitting at spaces and taking first characters picks exactly the
      word-initial characters, in order. */
  lemma {:induction false} HeadsOfSplit(s: string)
    ensures Heads(Split(s, ' ')) == WordStarts(s)
  {
    HeadsOfSplitTail(s);
    if |s| > 0 {
      var parts := Split(s, ' ');
      assert parts == [parts[0]] + parts[1..];
      HeadsOfSplitTail(s[1..]);
    }
  }

  /** `getInitials`: the first characters of the space-separated words, in
      order, upper-cased, cut to two. */
  function GetInitials(name: string): (r: string)
    ensures |r| <= 2
    ensures |r| == if |WordStarts(name)| < 2 then |WordStarts(name)| else 2
    ensures forall i :: 0 <= i < |r| ==> r[i] == UpperChar(WordStarts(name)[i])
  {
    HeadsOfSplit(name);
    var all := ToUpper(Heads(Split(name, ' ')));
    if |all| <= 2 then all else all[..2]
  }

  // ---------------------------------------------------------- avatar colour

  const AvatarColors: seq<string> :=
    ["bg-blue-500", "bg-green-500", "bg-purple-500", "bg-pink-500",
     "bg-indigo-500", "bg-orange-500", "bg-teal-500", "bg-red-500"]

  /** `charCodeAt` of a character: its UTF-16 code unit, or the high
      surrogate for a character outside the basic plane. */
  function CodeUnit(c: char): nat {
    if c as int < 0x1_0000 then c as int else 0xD800 + (c as int - 0x1_0000) / 0x400
  }

  /** `getAvatarColor`: the colour at the first code unit modulo the
      number of colours; an empty name indexes with `NaN` and gets none. */
  function GetAvatarColor(name: string): (r: Option<string>)
    ensures r.None? <==> |name| == 0
    ensures r.Some? ==> r.value in AvatarColors
    ensures r.Some? ==> r.value == AvatarColors[CodeUnit(name[0]) % |AvatarColors|]
  {
    if |name| == 0 then None else Some(AvatarColors[CodeUnit(name[0]) % |AvatarColors|])
  }

  /** Names that start with the same character get the same colour. */
  lemma SameFirstCharSameColor(a: string, b: string)
    requires |a| > 0 && |b| > 0 && a[0] == b[0]
    ensures GetAvatarColor(a) == GetAvatarColor(b)
  {
  }

  // ---------------------------------------------------------- risk labels

  /** The bucket a status is shown in. */
  datatype RiskLevel = SafeLevel | WarningLevel | AtRiskLevel | Unrated

  /** The status, lower-cased, contains `phrase`. */
  ghost predicate Mentions(status: string, phrase: string) {
    Occurs(phrase, ToLower(status))
  }

  /** The classification the badge and the icon both follow, stated with
      plain occurrence: the first matching rule wins. */
  ghost function RiskLevelOf(status: string): RiskLevel {
    if Mentions(status, "low risk") || Mentions(status, "safe") then SafeLevel
    else if Mentions(status, "medium risk") || Mentions(status, "warning") then WarningLevel
    else if Mentions(status, "high risk") || Mentions(status, "at risk") then AtRiskLevel
    else Unrated
  }

  const GreenBadge: string := "bg-green-50 text-green-600 border-green-200"
  const OrangeBadge: string := "bg-orange-50 text-orange-600 border-orange-200"
  const RedBadge: string := "bg-red-50 text-red-600 border-red-200"
  const GrayBadge: string := "bg-gray-50 text-gray-600 border-gray-200"

  function BadgeLevel(badge: string): RiskLevel {
    if badge == GreenBadge then SafeLevel
    else if badge == OrangeBadge then WarningLevel
    else if badge == RedBadge then AtRiskLevel
    else Unrated
  }

  lemma MentionsIsIncludes(status: string, phrase: string)
    ensures Mentions(status, phrase) <==> Includes(ToLower(status), phrase)
  {
    IncludesIffOccurs(ToLower(status), phrase);
  }

  /** `getRiskBadgeColor`. */
  function GetRiskBadgeColor(riskLevel: string): (r: string)
    ensures BadgeLevel(r) == RiskLevelOf(riskLevel)
    ensures r in {GreenBadge, OrangeBadge, RedBadge, GrayBadge}
  {
    var risk := ToLower(riskLevel);
    MentionsIsIncludes(riskLevel, "low risk");
    MentionsIsIncludes(riskLevel, "safe");
    MentionsIsIncludes(riskLevel, "medium risk");
    MentionsIsIncludes(riskLevel, "warning");
    MentionsIsIncludes(riskLevel, "high risk");
    MentionsIsIncludes(riskLevel, "at risk");
    if Includes(risk, "low risk") || Includes(risk, "safe") then GreenBadge
    else if Includes(risk, "medium risk") || Includes(risk, "warning") then OrangeBadge
    else if Includes(risk, "high risk") || Includes(risk, "at risk") then RedBadge
    else GrayBadge
  }

  datatype Glyph = ShieldGlyph | AlertTriangleGlyph | AlertCircleGlyph

  /** An icon as drawn: its glyph and colour. */
  datatype Icon = Icon(glyph: Glyph, color: string)

  function IconLevel(icon: Icon): RiskLevel {
    if icon == Icon(ShieldGlyph, "#10B981") then SafeLevel
    else if icon == Icon(AlertTriangleGlyph, "#F59E0B") then WarningLevel
    else if icon == Icon(AlertCircleGlyph, "#EF4444") then AtRiskLevel
    else Unrated
  }

  /** `getRiskIcon`. */
  function GetRiskIcon(riskLevel: string): (r: Icon)
    ensures IconLevel(r) == RiskLevelOf(riskLevel)
  {
    var risk := ToLower(riskLevel);
    MentionsIsIncludes(riskLevel, "low risk");
    MentionsIsIncludes(riskLevel, "safe");
    MentionsIsIncludes(riskLevel, "medium risk");
    MentionsIsIncludes(riskLevel, "warning");
    MentionsIsIncludes(riskLevel, "high risk");
    MentionsIsIncludes(riskLevel, "at risk");
    if Includes(risk, "low risk") || Includes(risk, "safe") then Icon(ShieldGlyph, "#10B981")
    else if Includes(risk, "medium risk") || Includes(risk, "warning") then Icon(AlertTriangleGlyph, "#F59E0B")
    else if Includes(risk, "high risk") || Includes(risk, "at risk") then Icon(AlertCircleGlyph, "#EF4444")
    else Icon(AlertCircleGlyph, "#6B7280")
  }

  /** The icon and the badge of a status always show the same bucket. */
  lemma IconMatchesBadge(status: string)
    ensures IconLevel(GetRiskIcon(status)) == BadgeLevel(GetRiskBadgeColor(status))
  {
  }

  /** The classification ignores letter case. */
  lemma {:induction false} RiskLevelIgnoresCase(status: string)
    ensures RiskLevelOf(ToUpper(status)) == RiskLevelOf(status)
    ensures RiskLevelOf(ToLower(status)) == RiskLevelOf(status)
  {
    ToLowerOfToUpper(status);
    ToLowerIdempotent(status);
  }

  /** So the badge does too. */
  lemma BadgeIgnoresCase(status: string)
    ensures GetRiskBadgeColor(ToUpper(status)) == GetRiskBadgeColor(status)
    ensures GetRiskBadgeColor(ToLower(status)) == GetRiskBadgeColor(status)
  {
    RiskLevelIgnoresCase(status);
    var a := GetRiskBadgeColor(ToUpper(status));
    var b := GetRiskBadgeColor(status);
    var c := GetRiskBadgeColor(ToLower(status));
    assert BadgeLevel(a) == BadgeLevel(b) == BadgeLevel(c);
  }


  // ---------------------------------------------------------- attendance bar

  const GreenBar: string := "bg-green-500"
  const YellowBar: string := "bg-yellow-500"
  const RedBar: string := "bg-red-500"

  /** `getAttendanceBarColor`: green from 80, yellow from 60, red below. */
  function GetAttendanceBarColor(attendance: real): (r: string)
    ensures r == GreenBar <==> attendance >= 80.0
    ensures r == YellowBar <==> 60.0 <= attendance < 80.0
    ensures r == RedBar <==> attendance < 60.0
  {
    if attendance >= 80.0 then GreenBar
    else if attendance >= 60.0 then YellowBar
    else RedBar
  }

  /** How good a bar colour is: red 0, yellow 1, green 2. */
  function BarRank(bar: string): nat {
    if bar == GreenBar then 2 else if bar == YellowBar then 1 else 0
  }

  /** More attendance never gives a worse colour. */
  lemma BarColorMonotone(a: real, b: real)
    requires a <= b
    ensures BarRank(GetAttendanceBarColor(a)) <= BarRank(GetAttendanceBarColor(b))
  {
  }

  // ---------------------------------------------------------- loading

  const DemoDataAlert: Alert := Alert(
    "Using Demo Data",
    "Could not connect to backend. Showing demo data instead.\\n\\nMake sure you are logged in as a counselor.")

  datatype CounselorScreen = CounselorScreen(loading: bool, refreshing: bool, data: Option<CounselorData>, isUsingMockData: bool)

  /** A load: the screen afterwards and the alert raised, if any. */
  datatype LoadStep = LoadStep(screen: CounselorScreen, alert: Option<Alert>)

  /** `loadCounselorData`. `fetched` is the outcome of the counselor
      roster call, which the service file does not define and which is
      therefore an opaque call that may fail. */
  function LoadCounselorData(s: CounselorScreen, fetched: Result<CounselorData>): (r: LoadStep)
    ensures !r.screen.loading && r.screen.refreshing == s.refreshing
    ensures fetched.Success? ==> r.screen.data == Some(fetched.value) && !r.screen.isUsingMockData && r.alert.None?
    ensures fetched.Failure? ==> r.screen.data == Some(MockCounselorData) && r.screen.isUsingMockData
                                 && r.alert == Some(DemoDataAlert)
  {
    match fetched
    case Success(d) => LoadStep(s.(loading := false, data := Some(d), isUsingMockData := false), None)
    case Failure(_) => LoadStep(s.(loading := false, data := Some(MockCounselorData), isUsingMockData := true), Some(DemoDataAlert))
  }

  /** `handleRefresh`: a full reload, with the pull-to-refresh spinner off
      afterwards. */
  function HandleRefresh(s: CounselorScreen, fetched: Result<CounselorData>): (r: LoadStep)
    ensures !r.screen.loading && !r.screen.refreshing
    ensures fetched.Success? ==> r.screen.data == Some(fetched.value)
    ensures fetched.Failure? ==> r.screen.data == Some(MockCounselorData)
    ensures r.screen.isUsingMockData <==> fetched.Failure?
    ensures r.alert.Some? <==> fetched.Failure?
    ensures fetched.Failure? ==> r.alert == Some(DemoDataAlert)
  {
    var step := LoadCounselorData(s.(refreshing := true), fetched);
    step.(screen := step.screen.(refreshing := false))
  }

  /** Unless the server itself sends the demo roster, the demo flag says
      exactly whether the roster on screen is the demo one, after a load
      and after a refresh. */
  lemma DemoFlagTellsSource(s: CounselorScreen, fetched: Result<CounselorData>)
    requires fetched.Success? ==> fetched.value != MockCounselorData
    ensures var r := LoadCounselorData(s, fetched).screen;
            r.isUsingMockData <==> r.data == Some(MockCounselorData)
    ensures var r := HandleRefresh(s, fetched).screen;
            r.isUsingMockData <==> r.data == Some(MockCounselorData)
  {
  }

  /** The roster call as the service stands: the service object has no
      `getCounselorDashboard`, so calling it throws a `TypeError` inside the
      `try`. */
  const RosterCallToday: Result<CounselorData> :=
    Failure("authService.getCounselorDashboard is not a function")

  /** With the service as it stands, every load and refresh shows the demo
      roster in demo mode with the demo-data alert. */
  lemma TodayAlwaysDemo(s: CounselorScreen)
    ensures LoadCounselorData(s, RosterCallToday) ==
              LoadStep(s.(loading := false, data := Some(MockCounselorData), isUsingMockData := true), Some(DemoDataAlert))
    ensures HandleRefresh(s, RosterCallToday).screen.data == Some(MockCounselorData)
  {
  }

  // ---------------------------------------------------------- demo roster

  /** How many students' labels fall in `level`. */
  ghost function CountLevel(students: seq<Student>, level: RiskLevel): nat
    decreases |students|
  {
    if |students| == 0 then 0
    else (if RiskLevelOf(students[0].currentRiskStatus) == level then 1 else 0) + CountLevel(students[1..], level)
  }

  lemma HighRiskLabel()
    ensures RiskLevelOf("High Risk") == AtRiskLevel
  {
    assert ToLower("High Risk") == "high risk";
    assert !Mentions("High Risk", "low risk") by {
      NotIncludedWithoutFirstChar("high risk", "low risk");
      MentionsIsIncludes("High Risk", "low risk");
    }
    assert !Mentions("High Risk", "safe") by {
      NotIncludedWithoutFirstChar("high risk", "safe");
      MentionsIsIncludes("High Risk", "safe");
    }
    assert !Mentions("High Risk", "medium risk") by {
      NotIncludedWithoutFirstChar("high risk", "medium risk");
      MentionsIsIncludes("High Risk", "medium risk");
    }
    assert !Mentions("High Risk", "warning") by {
      NotIncludedWithoutFirstChar("high risk", "warning");
      MentionsIsIncludes("High Risk", "warning");
    }
    assert Mentions("High Risk", "high risk") by {
      assert OccursAt("high risk", ToLower("High Risk"), 0);
    }
  }

  lemma MediumRiskLabel()
    ensures RiskLevelOf("Medium Risk") == WarningLevel
  {
    assert ToLower("Medium Risk") == "medium risk";
    assert !Mentions("Medium Risk", "low risk") by {
      NotIncludedWithoutFirstChar("medium risk", "low risk");
      MentionsIsIncludes("Medium Risk", "low risk");
    }
    assert !Mentions("Medium Risk", "safe") by {
      NotIncludedWithoutFirstChar("medium risk", "safe");
      MentionsIsIncludes("Medium Risk", "safe");
    }
    assert Mentions("Medium Risk", "medium risk") by {
      assert OccursAt("medium risk", ToLower("Medium Risk"), 0);
    }
  }

  lemma LowRiskLabel()
    ensures RiskLevelOf("Low Risk") == SafeLevel
  {
    assert ToLower("Low Risk") == "low risk";
    assert Mentions("Low Risk", "low risk") by {
      assert OccursAt("low risk", ToLower("Low Risk"), 0);
    }
  }

  /** The demo roster's summary agrees with its students: the labels fall
      1 / 2 / 2 into the buckets, the counts add up to the roster size and
      the distribution is each count's share of it in percent. */
  lemma MockSummaryMatchesRoster()
    ensures var d := MockCounselorData;
            && CountLevel(d.students, SafeLevel) == d.summary.riskCounts.safe
            && CountLevel(d.students, WarningLevel) == d.summary.riskCounts.warning
            && CountLevel(d.students, AtRiskLevel) == d.summary.riskCounts.atRisk
            && CountLevel(d.students, Unrated) == 0
            && d.summary.riskCounts.safe + d.summary.riskCounts.warning + d.summary.riskCounts.atRisk
               == d.summary.totalStudents == |d.students|
            && d.summary.riskDistribution.safe == d.summary.riskCounts.safe as real * 100.0 / d.summary.totalStudents as real
            && d.summary.riskDistribution.warning == d.summary.riskCounts.warning as real * 100.0 / d.summary.totalStudents as real
            && d.summary.riskDistribution.atRisk == d.summary.riskCounts.atRisk as real * 100.0 / d.summary.totalStudents as real
  {
    HighRiskLabel();
    MediumRiskLabel();
    LowRiskLabel();
  }

  function SumGpa(students: seq<Student>): real
    decreases |students|
  {
    if |students| == 0 then 0.0 else students[0].currentGpa + SumGpa(students[1..])
  }

  function SumAttendance(students: seq<Student>): real
    decreases |students|
  {
    if |students| == 0 then 0.0 else students[0].currentAttendance + SumAttendance(students[1..])
  }

  /** The demo summary's attendance is the roster mean (73), but its GPA
      (2.6) is not: the five students' GPAs average 2.76. */
  lemma MockAveragesAgainstRoster()
    ensures var d := MockCounselorData;
            && d.summary.avgAttendance == SumAttendance(d.students) / |d.students| as real
            && SumGpa(d.students) / |d.students| as real == 2.76
            && d.summary.avgGpa != SumGpa(d.students) / |d.students| as real
  {
  }
}

=== FILE: dashboard.dfy ===
/** The student dashboard: loading with the demo fallback, sign-out, and
    how the displayed figures fall back on demo values. */
module Dashboard {
  import opened Wrappers
  import opened Storage
  import opened Gateway
  import opened Analytics
  import opened Ui
  import AuthService

  const MockRiskDistribution: seq<RiskSlice> := [
    RiskSlice("Low Risk", 62.7, "#10B981", "#374151", 12),
    RiskSlice("Medium Risk", 18.0, "#F59E0B", "#374151", 12),
    RiskSlice("High Risk", 19.3, "#EF4444", "#374151", 12)]

  const MockMonthlyTrends: seq<TrendPoint> := [
    TrendPoint("Jan", 3.2, 85.0, 25.0),
    TrendPoint("Feb", 3.3, 87.0, 23.0),
    TrendPoint("Mar", 3.1, 82.0, 28.0),
    TrendPoint("Apr", 3.4, 89.0, 21.0),
    TrendPoint("May", 3.5, 91.0, 19.0),
    TrendPoint("Jun", 3.3, 88.0, 22.0)]

  /** The demo analytics shown when the dashboard cannot be fetched. */
  const MockDashboardData: DashboardData :=
    DashboardData(Some(3.42), Some(87.0), Some(2.3), Some(-1.5), Some(MockRiskDistribution), Some(MockMonthlyTrends))

  datatype DashboardScreen = DashboardScreen(loading: bool, refreshing: bool, userData: Option<Json>, data: Option<DashboardData>)

  /** A load: the screen afterwards, the request sent and the alert
      raised, if any. */
  datatype LoadStep = LoadStep(screen: DashboardScreen, request: Option<Request>, alert: Option<Alert>)

  /** `loadDashboardData`: read the stored user, then fetch the analytics,
      falling back on the demo analytics when the fetch fails for any
      reason. Reading the stored user never fails, so the outer handler
      (its alert included) is never reached. */
  function LoadDashboardData(s: DashboardScreen, st: Store, t: Transport<AuthService.DashboardReply>): (r: LoadStep)
    ensures !r.screen.loading && r.screen.refreshing == s.refreshing
    ensures r.screen.userData == AuthService.GetStoredUserData(st)
    ensures r.alert.None?
    ensures r.request.Some? <==> AuthService.HasToken(st)
    ensures r.request == AuthService.GetDashboardData(st, t).request
    ensures !AuthService.HasToken(st) ==> r.screen.data == Some(MockDashboardData)
    ensures AuthService.HasToken(st) && !(t.Answered? && t.ok) ==> r.screen.data == Some(MockDashboardData)
    ensures AuthService.HasToken(st) && t.Answered? && t.ok ==>
              r.screen.data == Some(if t.body.data.Some? then t.body.data.value else t.body.topLevel)
  {
    var user := AuthService.GetStoredUserData(st);
    var call := AuthService.GetDashboardData(st, t);
    var data := match call.result case Success(d) => d case Failure(_) => MockDashboardData;
    LoadStep(s.(loading := false, userData := user, data := Some(data)), call.request, None)
  }

  /** `handleRefresh`: a full reload, with the refresh spinner off
      afterwards. */
  function HandleRefresh(s: DashboardScreen, st: Store, t: Transport<AuthService.DashboardReply>): (r: LoadStep)
    ensures !r.screen.loading && !r.screen.refreshing
    ensures r.screen.data.Some?
    ensures r.screen.data == LoadDashboardData(s, st, t).screen.data
    ensures r.screen.userData == AuthService.GetStoredUserData(st) && r.alert.None?
    ensures r.request == LoadDashboardData(s, st, t).request
  {
    var step := LoadDashboardData(s.(refreshing := true), st, t);
    step.(screen := step.screen.(refreshing := false))
  }

  /** A sign-out attempt: the store afterwards, the logout request sent,
      and whether the screen's `onLogout` callback ran. */
  datatype LogoutStep = LogoutStep(store: Store, request: Option<Request>, loggedOut: bool)

  /** `handleLogout`. `confirmed` is the user's answer to the
      confirmation dialog. Once confirmed, `onLogout` runs whether the
      service's `logout` resolves or rejects. */
  function HandleLogout<B>(st: Store, confirmed: bool, t: Transport<B>): (r: LogoutStep)
    ensures !confirmed ==> r == LogoutStep(st, None, false)
    ensures confirmed ==> r.loggedOut
    ensures confirmed ==> r.store == AuthService.Logout(st, t).store
                          && r.request == AuthService.Logout(st, t).call.request
    ensures confirmed ==> (r.request.Some? <==> AuthService.HasToken(st))
    ensures confirmed && st.fault.None? ==>
              !AuthService.IsAuthenticated(r.store) && AuthService.GetStoredUserData(r.store).None?
  {
    if !confirmed then LogoutStep(st, None, false)
    else
      var sc := AuthService.Logout(st, t);
      // Both the resolved and the rejected outcome run `onLogout`.
      match sc.call.result
      case Success(_) => LogoutStep(sc.store, sc.call.request, true)
      case Failure(_) => LogoutStep(sc.store, sc.call.request, true)
  }

  // ---------------------------------------------------------- display

  /** JavaScript truthiness of an optional number: present and not zero. */
  predicate NumberTruthy(v: Option<real>) {
    v.Some? && v.value != 0.0
  }

  /** `v || fallback` for an optional number. */
  function OrNumber(v: Option<real>, fallback: real): (r: real)
    ensures NumberTruthy(v) ==> r == v.value
    ensures !NumberTruthy(v) ==> r == fallback
  {
    if NumberTruthy(v) then v.value else fallback
  }

  /** A displayed figure: a number, or a fixed text. */
  datatype Shown = Number(n: real) | Literal(text: string)

  datatype Arrow = TrendingUp | TrendingDown

  /** The change indicator of a metric card: the arrow, the sign prefix,
      the number shown and the text colour. */
  datatype ChangeIndicator = ChangeIndicator(arrow: Arrow, sign: string, value: real, tone: string)

  /** The change indicator for `change || fallback`: the arrow points up,
      the text is green and a `+` is prefixed exactly when the number shown
      is positive. */
  function Indicator(change: Option<real>, fallback: real): (r: ChangeIndicator)
    ensures r.value == OrNumber(change, fallback)
    ensures r.arrow == TrendingUp <==> r.value > 0.0
    ensures r.sign == "+" <==> r.value > 0.0
    ensures r.sign == "" <==> r.value <= 0.0
    ensures r.tone == "text-green-600" <==> r.value > 0.0
  {
    var shown := OrNumber(change, fallback);
    if shown > 0.0 then ChangeIndicator(TrendingUp, "+", shown, "text-green-600")
    else ChangeIndicator(TrendingDown, "", shown, "text-red-600")
  }

  /** What the dashboard displays from its data. */
  datatype DashboardView = DashboardView(
    avgGpa: Shown,
    avgAttendance: real,
    gpaChange: ChangeIndicator,
    attendanceChange: ChangeIndicator,
    riskSlices: seq<RiskSlice>,
    trendLabels: seq<string>,
    gpaSeries: seq<real>,
    attendanceSeries: seq<real>)

  function Months(ts: seq<TrendPoint>): (r: seq<string>)
    ensures |r| == |ts| && forall i :: 0 <= i < |ts| ==> r[i] == ts[i].month
  {
    seq(|ts|, i requires 0 <= i < |ts| => ts[i].month)
  }

  function Gpas(ts: seq<TrendPoint>): (r: seq<real>)
    ensures |r| == |ts| && forall i :: 0 <= i < |ts| ==> r[i] == ts[i].gpa
  {
    seq(|ts|, i requires 0 <= i < |ts| => ts[i].gpa)
  }

  function Attendances(ts: seq<TrendPoint>): (r: seq<real>)
    ensures |r| == |ts| && forall i :: 0 <= i < |ts| ==> r[i] == ts[i].attendance
  {
    seq(|ts|, i requires 0 <= i < |ts| => ts[i].attendance)
  }

  /** The displayed figures. Each number falls back on its demo value when
      it is missing or zero; the two series fall back on the demo series
      only when missing (an empty list is shown as empty). */
  function View(d: Option<DashboardData>): (v: DashboardView)
    ensures v.avgGpa == (if d.Some? && NumberTruthy(d.value.avgGpa) then Number(d.value.avgGpa.value) else Literal("3.42"))
    ensures v.avgAttendance == (if d.Some? then OrNumber(d.value.avgAttendance, 87.0) else 87.0)
    ensures v.gpaChange.value == (if d.Some? then OrNumber(d.value.gpaChange, 2.3) else 2.3)
    ensures v.attendanceChange.value == (if d.Some? then OrNumber(d.value.attendanceChange, -1.5) else -1.5)
    ensures v.gpaChange == Indicator(if d.Some? then d.value.gpaChange else None, 2.3)
    ensures v.attendanceChange == Indicator(if d.Some? then d.value.attendanceChange else None, -1.5)
    ensures v.riskSlices == (if d.Some? && d.value.riskDistribution.Some? then d.value.riskDistribution.value
                             else MockRiskDistribution)
    ensures |v.trendLabels| == |v.gpaSeries| == |v.attendanceSeries|
    ensures d.Some? && d.value.monthlyTrends.Some? ==> |v.trendLabels| == |d.value.monthlyTrends.value|
    ensures d.None? || d.value.monthlyTrends.None? ==> v.trendLabels == ["Jan", "Feb", "Mar", "Apr", "May", "Jun"]
    ensures var trends := if d.Some? && d.value.monthlyTrends.Some? then d.value.monthlyTrends.value
                          else MockMonthlyTrends;
            && v.trendLabels == Months(trends)
            && v.gpaSeries == Gpas(trends)
            && v.attendanceSeries == Attendances(trends)
  {
    var none := DashboardData(None, None, None, None, None, None);
    var data := if d.Some? then d.value else none;
    var avgGpa := if NumberTruthy(data.avgGpa) then Number(data.avgGpa.value) else Literal("3.42");
    var trends := if data.monthlyTrends.Some? then data.monthlyTrends.value else MockMonthlyTrends;
    var risk := if data.riskDistribution.Some? then data.riskDistribution.value else MockRiskDistribution;
    DashboardView(
      avgGpa,
      OrNumber(data.avgAttendance, 87.0),
      Indicator(data.gpaChange, 2.3),
      Indicator(data.attendanceChange, -1.5),
      risk, Months(trends), Gpas(trends), Attendances(trends))
  }

  /** A real zero is displayed as the demo figure: a GPA change of 0 shows
      as an upward `+2.3`, an average GPA of 0 as `3.42` and an attendance
      of 0 as 87. */
  lemma ZeroShowsDemoFigures(d: DashboardData)
    requires d.gpaChange == Some(0.0) && d.avgGpa == Some(0.0) && d.avgAttendance == Some(0.0)
    ensures var v := View(Some(d));
            && v.gpaChange == ChangeIndicator(TrendingUp, "+", 2.3, "text-green-600")
            && v.avgGpa == Literal("3.42")
            && v.avgAttendance == 87.0
  {
  }

  /** Whatever happens to the fetch, a completed load has something to
      show, and when it fell back the display is the demo figures'. */
  lemma FallbackDisplaysDemo(s: DashboardScreen, st: Store, t: Transport<AuthService.DashboardReply>)
    requires !(AuthService.HasToken(st) && t.Answered? && t.ok)
    ensures var v := View(LoadDashboardData(s, st, t).screen.data);
            && v.avgGpa == Number(3.42) && v.avgAttendance == 87.0
            && v.gpaChange == ChangeIndicator(TrendingUp, "+", 2.3, "text-green-600")
            && v.attendanceChange == ChangeIndicator(TrendingDown, "", -1.5, "text-red-600")
            && v.riskSlices == MockRiskDistribution
            && v.trendLabels == ["Jan", "Feb", "Mar", "Apr", "May", "Jun"]
  {
  }
}

=== FILE: domain.dfy ===
/** The records the client exchanges with the backend and keeps on the
    device. */
module Domain {
  import opened Wrappers

  /** The signed-in user as the sign-in reply describes it
      (`LoginResponse.user`). */
  datatype User = User(userId: string, name: string, role: string)

  /** One line of the chat transcript. `timestamp` is a millisecond clock
      reading; a `Date` survives the JSON round trip at that precision. */
  datatype ChatMessage = ChatMessage(id: string, message: string, isUser: bool, timestamp: int)

  /** The sign-in request body: exactly one of `email` and `userId` is set. */
  datatype LoginData =
    | ByEmail(email: string, password: string)
    | ByUserId(userId: string, password: string)

  /** The sign-up request body (`SignupData`). */
  datatype SignupData = SignupData(name: string, email: Option<string>, password: string, role: Option<string>)

  /** JavaScript truthiness of an optional string: present and non-empty. */
  predicate Truthy(o: Option<string>) {
    o.Some? && o.value != ""
  }

  /** `o || fallback` for an optional string. */
  function OrElse(o: Option<string>, fallback: string): (r: string)
    ensures Truthy(o) ==> r == o.value
    ensures !Truthy(o) ==> r == fallback
  {
    if Truthy(o) then o.value else fallback
  }
}

/** The student analytics record the dashboard screen displays. Every
    field may be missing from a reply. */
module Analytics {
  import opened Wrappers

  /** One slice of the risk pie chart. */
  datatype RiskSlice = RiskSlice(name: string, value: real, color: string, legendFontColor: string, legendFontSize: int)

  /** One point of the monthly trend chart. */
  datatype TrendPoint = TrendPoint(month: string, gpa: real, attendance: real, riskScore: real)

  datatype DashboardData = DashboardData(
    avgGpa: Option<real>,
    avgAttendance: Option<real>,
    gpaChange: Option<real>,
    attendanceChange: Option<real>,
    riskDistribution: Option<seq<RiskSlice>>,
    monthlyTrends: Option<seq<TrendPoint>>)
}

=== FILE: forgot_password.dfy ===
/** The forgot-password screen: the address checks, the reset-token
    hand-off and the demo fallback. */
module ForgotPassword {
  import opened Wrappers
  import opened Text
  import opened Domain
  import opened Gateway
  import opened Ui
  import AuthService

  /** The body of the forgot-password reply. */
  datatype ForgotReply = ForgotReply(resetToken: Option<string>)

  const EnterEmailAlert: Alert := Alert("Error", "Please enter your email address.")
  const InvalidEmailAlert: Alert := Alert("Error", "Please enter a valid email address.")
  const SentAlert: Alert := Alert("Reset Email Sent", "Password reset instructions have been sent to your email.")
  const DemoSentAlert: Alert :=
    Alert("Demo Mode - Email Sent", "This is demo mode. In production, reset instructions would be sent to your email.")

  datatype ForgotForm = ForgotForm(email: string, loading: bool, isSubmitted: bool)

  /** One press of the submit button: the new form state, its alert, the
      request sent (if any) and the reset token handed to the caller's
      `onResetToken` callback (if any). */
  datatype ForgotStep = ForgotStep(form: ForgotForm, alert: Alert, request: Option<Request>, handOff: Option<string>)

  /** The checks made before any request: not blank once trimmed, and an
      `@` somewhere in the untrimmed text. */
  predicate EmailAccepted(email: string) {
    !Blank(email) && '@' in email
  }

  /** `handleSubmit`. `hasCallback` says whether `onResetToken` was given.
      Any accepted address ends submitted: a failing request switches to
      demo mode rather than reporting the error. */
  function HandleSubmit(f: ForgotForm, hasCallback: bool, t: Transport<ForgotReply>): (r: ForgotStep)
    ensures Blank(f.email) ==> r == ForgotStep(f, EnterEmailAlert, None, None)
    ensures !Blank(f.email) && '@' !in f.email ==> r == ForgotStep(f, InvalidEmailAlert, None, None)
    ensures EmailAccepted(f.email) ==>
              && r.form == f.(loading := false, isSubmitted := true)
              && r.request == Some(Request(Post, AuthService.ForgotPasswordPath, None, EmailPayload(f.email)))
              && r.alert == (if t.Answered? && t.ok then SentAlert else DemoSentAlert)
    ensures r.handOff.Some? <==>
              EmailAccepted(f.email) && hasCallback && t.Answered? && t.ok && Truthy(t.body.resetToken)
    ensures r.handOff.Some? ==> r.handOff.value == t.body.resetToken.value
  {
    if Blank(f.email) then ForgotStep(f, EnterEmailAlert, None, None)
    else if '@' !in f.email then ForgotStep(f, InvalidEmailAlert, None, None)
    else
      var call := AuthService.ForgotPassword(f.email, t);
      var done := f.(loading := false, isSubmitted := true);
      match call.result
      case Success(reply) =>
        var handOff := if Truthy(reply.resetToken) && hasCallback then Some(reply.resetToken.value) else None;
        ForgotStep(done, SentAlert, call.request, handOff)
      case Failure(_) => ForgotStep(done, DemoSentAlert, call.request, None)
  }

  /** Whatever the server does, an accepted address is reported as sent,
      and a refused one never reaches the server. */
  lemma SubmittedIffAccepted(f: ForgotForm, hasCallback: bool, t: Transport<ForgotReply>)
    requires !f.isSubmitted
    ensures HandleSubmit(f, hasCallback, t).form.isSubmitted <==> EmailAccepted(f.email)
    ensures HandleSubmit(f, hasCallback, t).request.Some? <==> EmailAccepted(f.email)
  {
  }
}

=== FILE: gateway.dfy ===
/** The request wrapper both services use (`makeRequest`): one `fetch`,
    the reply's JSON body, and the choice of error message. */
module Gateway {
  import opened Wrappers
  import opened Domain
  import opened Storage

  const GenericFailure: string := "Something went wrong"
  const NetworkFailure: string := "Network error occurred"

  /** Something a rejected promise carried: an `Error` with its message, or
      any other thrown value. */
  datatype Thrown = ErrorObject(message: string) | NonError

  /** The two fields of a reply body the client reads on failure. */
  datatype ErrorFields = ErrorFields(message: Option<string>, error: Option<string>)

  /** What one `fetch` produced: a reply with its status class and JSON
      body, a reply whose body is not JSON (`response.json()` rejects with
      a `SyntaxError`), or a rejection before any reply. */
  datatype Transport<B> =
    | Answered(ok: bool, fields: ErrorFields, body: B)
    | UnparseableBody(syntaxError: string)
    | Rejected(thrown: Thrown)

  datatype Verb = Get | Post

  datatype Payload =
    | NoPayload
    | SignInPayload(login: LoginData)
    | SignupPayload(account: SignupData)
    | EmailPayload(email: string)
    | ResetPayload(token: string, newPassword: string)
    | MessagePayload(message: string)

  /** A request as it leaves the client: verb, path, the stored token sent
      as `Authorization: Bearer …` (if any), and the JSON body. */
  datatype Request = Request(verb: Verb, path: string, bearer: Option<Stored>, body: Payload)

  /** The message of a failed call, whatever its cause. */
  function RejectionMessage(t: Thrown): string {
    match t
    case ErrorObject(m) => m
    case NonError => NetworkFailure
  }

  /** `makeRequest` of the authentication service: a non-ok reply fails
      with the body's `message`, or a generic message when it has none. */
  function AuthOutcome<B>(t: Transport<B>): (r: Result<B>)
    ensures r.Success? <==> t.Answered? && t.ok
    ensures r.Success? ==> r.value == t.body
    ensures t.Answered? && !t.ok ==> r.error == OrElse(t.fields.message, GenericFailure) && r.error != ""
    ensures t.UnparseableBody? ==> r.error == t.syntaxError
    ensures t.Rejected? && t.thrown.ErrorObject? ==> r.error == t.thrown.message
    ensures t.Rejected? && t.thrown.NonError? ==> r.error == NetworkFailure
  {
    match t
    case Answered(ok, fields, body) =>
      if ok then Success(body)
      else if Truthy(fields.message) then Failure(fields.message.value)
      else Failure(GenericFailure)
    case UnparseableBody(m) => Failure(m)
    case Rejected(thrown) => Failure(RejectionMessage(thrown))
  }

  /** `makeRequest` of the chatbot service: on a non-ok reply the body's
      `error` takes precedence over its `message`. */
  function ChatOutcome<B>(t: Transport<B>): (r: Result<B>)
    ensures t.Answered? && !t.ok && Truthy(t.fields.error) ==> r == Failure(t.fields.error.value)
    ensures !(t.Answered? && !t.ok && Truthy(t.fields.error)) ==> r == AuthOutcome(t)
  {
    match t
    case Answered(ok, fields, body) =>
      if ok then Success(body)
      else if Truthy(fields.error) then Failure(fields.error.value)
      else if Truthy(fields.message) then Failure(fields.message.value)
      else Failure(GenericFailure)
    case UnparseableBody(m) => Failure(m)
    case Rejected(thrown) => Failure(RejectionMessage(thrown))
  }

  /** The three-way precedence of the chatbot service's message choice. */
  lemma ChatMessagePrecedence<B>(t: Transport<B>)
    requires t.Answered? && !t.ok
    ensures Truthy(t.fields.error) ==> ChatOutcome(t).error == t.fields.error.value
    ensures !Truthy(t.fields.error) && Truthy(t.fields.message) ==> ChatOutcome(t).error == t.fields.message.value
    ensures !Truthy(t.fields.error) && !Truthy(t.fields.message) ==> ChatOutcome(t).error == GenericFailure
  {
  }
}

=== FILE: login_screen.dfy ===
/** The sign-in screen: the empty-field check, the choice between an
    e-mail and a user-id login, and the role-based route. */
module LoginScreen {
  import opened Wrappers
  import opened Domain
  import opened Storage
  import opened Gateway
  import opened Ui
  import AuthService

  const MissingFieldsAlert: Alert := Alert("Error", "Please enter both email and password.")
  const CounselorRole: string := "counselor"

  datatype LoginForm = LoginForm(email: string, password: string, loading: bool)

  /** One press of the sign-in button: the form, the store, the alert, the
      screen its OK button leads to (if any) and the request sent. */
  datatype SignInStep = SignInStep(form: LoginForm, store: Store, alert: Alert, onOk: Option<Screen>, request: Option<Request>)

  /** The identifier field is sent as an e-mail when it contains `@` and
      as a user id otherwise. */
  function LoginDataFor(identifier: string, password: string): (d: LoginData)
    ensures d.ByEmail? <==> '@' in identifier
    ensures d.ByEmail? ==> d.email == identifier
    ensures d.ByUserId? ==> d.userId == identifier
    ensures d.password == password
  {
    if '@' in identifier then ByEmail(identifier, password) else ByUserId(identifier, password)
  }

  /** The screen a signed-in user is sent to. */
  function RouteFor(role: string): (s: Screen)
    ensures s == CounselorDashboardScreen <==> role == CounselorRole
    ensures s != CounselorDashboardScreen ==> s == StudentDashboard
  {
    if role == CounselorRole then CounselorDashboardScreen else StudentDashboard
  }

  function WelcomeAlert(name: string): Alert {
    Alert("Success", "Welcome back, " + name + "!")
  }

  function LoginFailedAlert(message: string): Alert {
    Alert("Login Failed", message)
  }

  /** `handleSignIn`. Empty fields (untrimmed) are refused without a
      request. Otherwise the service's `login` runs; on success the alert
      greets the user and its OK button routes by role, on failure the
      alert shows the error and nothing navigates. */
  function HandleSignIn(f: LoginForm, st: Store, t: Transport<AuthService.SignInReply>): (r: SignInStep)
    ensures f.email == "" || f.password == "" ==> r == SignInStep(f, st, MissingFieldsAlert, None, None)
    ensures f.email != "" && f.password != "" ==>
              && !r.form.loading
              && r.request == Some(Request(Post, AuthService.SignInPath, None,
                                           SignInPayload(LoginDataFor(f.email, f.password))))
    ensures r.onOk.Some? <==>
              f.email != "" && f.password != ""
              && AuthService.Login(st, LoginDataFor(f.email, f.password), t).call.result.Success?
    ensures r.onOk.Some? ==> t.Answered? && r.onOk.value == RouteFor(t.body.user.role)
                             && r.alert == WelcomeAlert(t.body.user.name)
    ensures f.email != "" && f.password != "" && r.onOk.None? ==>
              r.alert == LoginFailedAlert(AuthService.Login(st, LoginDataFor(f.email, f.password), t).call.result.error)
    ensures f.email != "" && f.password != "" ==>
              && r.form == f.(loading := false)
              && r.store == AuthService.Login(st, LoginDataFor(f.email, f.password), t).store
    ensures r.store != st ==> r.onOk.Some?
  {
    if f.email == "" || f.password == "" then SignInStep(f, st, MissingFieldsAlert, None, None)
    else
      var sc := AuthService.Login(st, LoginDataFor(f.email, f.password), t);
      var done := f.(loading := false);
      match sc.call.result
      case Success(reply) =>
        SignInStep(done, sc.store, WelcomeAlert(reply.user.name), Some(RouteFor(reply.user.role)), sc.call.request)
      case Failure(e) =>
        SignInStep(done, sc.store, LoginFailedAlert(e), None, sc.call.request)
  }

  /** Exactly one of the two identifier fields is sent, and it carries the
      text as typed. */
  lemma OneIdentifierField(identifier: string, password: string)
    ensures match LoginDataFor(identifier, password)
            case ByEmail(e, _) => e == identifier && '@' in identifier
            case ByUserId(u, _) => u == identifier && '@' !in identifier
  {
  }
}

=== FILE: reset_password.dfy ===
/** The reset-password screen: the password-strength rule and the order of
    checks before the reset request. */
module ResetPassword {
  import opened Wrappers
  import opened Text
  import opened Domain
  import opened Gateway
  import opened Ui
  import AuthService

  const MinLength: nat := 8

  /** Why a password is refused. */
  datatype PasswordIssue = TooShort | MissingCase | MissingDigit

  function IssueMessage(issue: PasswordIssue): string {
    match issue
    case TooShort => "Password must be at least 8 characters long"
    case MissingCase => "Password must contain both uppercase and lowercase letters"
    case MissingDigit => "Password must contain at least one number"
  }

  /** No line terminator among `s[i..j]`: `.*` can reach from `i` to `j`. */
  predicate LineFree(s: string, i: int, j: int)
    requires 0 <= i <= j <= |s|
  {
    forall k :: i <= k < j ==> !IsLineTerminator(s[k])
  }

  /** The lookahead `(?=.*[a-z])` succeeds at position `i`. */
  predicate LowerAhead(s: string, i: int)
    requires 0 <= i <= |s|
  {
    exists j :: i <= j < |s| && IsAsciiLower(s[j]) && LineFree(s, i, j)
  }

  /** The lookahead `(?=.*[A-Z])` succeeds at position `i`. */
  predicate UpperAhead(s: string, i: int)
    requires 0 <= i <= |s|
  {
    exists j :: i <= j < |s| && IsAsciiUpper(s[j]) && LineFree(s, i, j)
  }

  /** The lookahead `(?=.*\d)` succeeds at position `i`. */
  predicate DigitAhead(s: string, i: int)
    requires 0 <= i <= |s|
  {
    exists j :: i <= j < |s| && IsAsciiDigit(s[j]) && LineFree(s, i, j)
  }

  /** `/(?=.*[a-z])(?=.*[A-Z])/.test(s)`: some start position sees both a
      lower-case and an upper-case letter before the next line break. */
  predicate CaseRule(s: string) {
    exists i :: 0 <= i <= |s| && LowerAhead(s, i) && UpperAhead(s, i)
  }

  /** `/(?=.*\d)/.test(s)`. */
  predicate DigitRule(s: string) {
    exists i :: 0 <= i <= |s| && DigitAhead(s, i)
  }

  predicate HasLower(s: string) { exists i :: 0 <= i < |s| && IsAsciiLower(s[i]) }
  predicate HasUpper(s: string) { exists i :: 0 <= i < |s| && IsAsciiUpper(s[i]) }
  predicate HasDigit(s: string) { exists i :: 0 <= i < |s| && IsAsciiDigit(s[i]) }

  predicate OneLine(s: string) {
    forall k :: 0 <= k < |s| ==> !IsLineTerminator(s[k])
  }

  /** The strength the screen asks for, as its messages describe it: eight
      characters, a lower-case letter, an upper-case letter and a digit. */
  predicate Strong(pwd: string) {
    |pwd| >= MinLength && HasLower(pwd) && HasUpper(pwd) && HasDigit(pwd)
  }

  /** The digit lookahead holds exactly when the string has a digit. */
  lemma DigitRuleIffHasDigit(s: string)
    ensures DigitRule(s) <==> HasDigit(s)
  {
    if HasDigit(s) {
      var j :| 0 <= j < |s| && IsAsciiDigit(s[j]);
      assert DigitAhead(s, j);
    }
  }

  /** The case lookaheads never accept a string lacking either letter. */
  lemma CaseRuleNeedsBoth(s: string)
    ensures CaseRule(s) ==> HasLower(s) && HasUpper(s)
  {
  }

  /** On a single line the case lookaheads mean "has a lower-case and an
      upper-case letter". */
  lemma CaseRuleOnOneLine(s: string)
    requires OneLine(s)
    ensures CaseRule(s) <==> HasLower(s) && HasUpper(s)
  {
    if HasLower(s) && HasUpper(s) {
      var a :| 0 <= a < |s| && IsAsciiLower(s[a]);
      var b :| 0 <= b < |s| && IsAsciiUpper(s[b]);
      assert LineFree(s, 0, a) && LineFree(s, 0, b);
      assert LowerAhead(s, 0) && UpperAhead(s, 0);
    }
  }

  /** `validatePassword`: the first failing rule, checked in the order
      length, letter case, digit; nothing when all pass. */
  function ValidatePassword(pwd: string): (r: Option<PasswordIssue>)
    ensures r == Some(TooShort) <==> |pwd| < MinLength
    ensures r == Some(MissingCase) <==> |pwd| >= MinLength && !CaseRule(pwd)
    ensures r == Some(MissingDigit) <==> |pwd| >= MinLength && CaseRule(pwd) && !HasDigit(pwd)
    ensures r.None? ==> Strong(pwd)
  {
    DigitRuleIffHasDigit(pwd);
    CaseRuleNeedsBoth(pwd);
    if |pwd| < MinLength then Some(TooShort)
    else if !CaseRule(pwd) then Some(MissingCase)
    else if !DigitRule(pwd) then Some(MissingDigit)
    else None
  }

  /** For a password without line breaks the rule accepts exactly the
      strong passwords. */
  lemma {:induction false} ValidateAcceptsExactlyStrong(pwd: string)
    requires OneLine(pwd)
    ensures ValidatePassword(pwd).None? <==> Strong(pwd)
  {
    CaseRuleOnOneLine(pwd);
  }

  /** Across a line break the case rule is stricter than its message: a
      password with both letters, a digit and nine characters is refused
      when its two letter cases sit on different lines. */
  lemma LettersOnSeparateLinesRefused()
    ensures var pwd := "abcd\nEFG1";
            Strong(pwd) && ValidatePassword(pwd) == Some(MissingCase)
  {
    var pwd := "abcd\nEFG1";
    assert IsAsciiLower(pwd[0]) && IsAsciiUpper(pwd[5]) && IsAsciiDigit(pwd[8]);
    forall i | 0 <= i <= |pwd|
      ensures !(LowerAhead(pwd, i) && UpperAhead(pwd, i))
    {
      if i <= 4 {
        forall j | i <= j < |pwd| && IsAsciiUpper(pwd[j])
          ensures !LineFree(pwd, i, j)
        {
          assert IsLineTerminator(pwd[4]);
        }
      } else {
        forall j | i <= j < |pwd|
          ensures !IsAsciiLower(pwd[j])
        {
        }
      }
    }
  }

  const EnterPasswordAlert: Alert := Alert("Error", "Please enter a new password.")
  const MismatchAlert: Alert := Alert("Error", "Passwords do not match.")
  const DemoResetAlert: Alert :=
    Alert("Demo Mode", "Password reset simulated successfully! In production, this would update your actual password.")
  const ResetDoneAlert: Alert :=
    Alert("Password Reset Successfully", "Your password has been updated. You can now sign in with your new password.")

  function PasswordErrorAlert(issue: PasswordIssue): Alert {
    Alert("Password Error", IssueMessage(issue))
  }

  function ResetFailedAlert(message: string): Alert {
    Alert("Reset Failed", message)
  }

  /** The form's state: the two fields, the spinner and whether the reset
      has been done. */
  datatype ResetForm = ResetForm(password: string, confirmPassword: string, loading: bool, isReset: bool)

  /** One press of the reset button: the new form state, the one alert it
      raises and the request it sends, if any. */
  datatype ResetStep = ResetStep(form: ResetForm, alert: Alert, request: Option<Request>)

  /** The checks `handleReset` makes before doing anything. */
  predicate FormAccepted(f: ResetForm) {
    !Blank(f.password) && ValidatePassword(f.password).None? && f.password == f.confirmPassword
  }

  /** `handleReset`: refuse a blank password, then a weak one (the
      untrimmed text is validated), then a mismatching confirmation; a
      refused form is left as it was. An accepted form without a reset
      token is marked reset at once (demo mode); with a token the reset is
      requested and the form is marked reset only if that succeeds. */
  function HandleReset<B>(f: ResetForm, resetToken: Option<string>, t: Transport<B>): (r: ResetStep)
    ensures Blank(f.password) ==> r == ResetStep(f, EnterPasswordAlert, None)
    ensures !Blank(f.password) && ValidatePassword(f.password).Some? ==>
              r == ResetStep(f, PasswordErrorAlert(ValidatePassword(f.password).value), None)
    ensures !Blank(f.password) && ValidatePassword(f.password).None? && f.password != f.confirmPassword ==>
              r == ResetStep(f, MismatchAlert, None)
    ensures FormAccepted(f) ==> !r.form.loading
    ensures FormAccepted(f) && !Truthy(resetToken) ==>
              r.request.None? && r.form.isReset && r.alert == DemoResetAlert
    ensures FormAccepted(f) && Truthy(resetToken) ==>
              && r.request == Some(Request(Post, AuthService.ResetPasswordPath, None,
                                           ResetPayload(resetToken.value, f.password)))
              && r.form.isReset == (f.isReset || (t.Answered? && t.ok))
    ensures FormAccepted(f) ==> r.form.password == f.password && r.form.confirmPassword == f.confirmPassword
    ensures FormAccepted(f) && Truthy(resetToken) ==>
              r.alert == (if t.Answered? && t.ok then ResetDoneAlert else ResetFailedAlert(AuthOutcome(t).error))
    ensures r.request.Some? ==> FormAccepted(f) && Strong(f.password)
    ensures r.form.isReset != f.isReset ==> FormAccepted(f)
  {
    if Blank(f.password) then ResetStep(f, EnterPasswordAlert, None)
    else match ValidatePassword(f.password)
      case Some(issue) => ResetStep(f, PasswordErrorAlert(issue), None)
      case None =>
        if f.password != f.confirmPassword then ResetStep(f, MismatchAlert, None)
        else if !Truthy(resetToken) then
          ResetStep(f.(loading := false, isReset := true), DemoResetAlert, None)
        else
          var call := AuthService.ResetPassword(resetToken.value, f.password, t);
          match call.result
          case Success(_) => ResetStep(f.(loading := false, isReset := true), ResetDoneAlert, call.request)
          case Failure(e) => ResetStep(f.(loading := false), ResetFailedAlert(e), call.request)
  }
}

=== FILE: storage.dfy ===
/** The device's key/value store (AsyncStorage). Every value is a string;
    the model tells apart a string written verbatim from the text
    `JSON.stringify` produced for a document. */
module Storage {
  import opened Wrappers
  import opened Domain

  const AuthTokenKey: string := "authToken"
  const UserDataKey: string := "userData"
  const ChatHistoryKey: string := "chatHistory"

  /** A JSON document the client serialises. */
  datatype Json = UserJson(user: User) | TranscriptJson(messages: seq<ChatMessage>)

  /** A stored string: written verbatim (the token), or the serialisation
      of a document. A verbatim string is taken to be text `JSON.parse`
      rejects, as the opaque tokens the server issues are. */
  datatype Stored = Plain(text: string) | Serialized(doc: Json)

  /** The store's contents, and the error every call raises while the
      store is unavailable (`fault`). */
  datatype Store = Store(entries: map<string, Stored>, fault: Option<string>)

  /** JavaScript truthiness of a stored string. A serialised document is
      never the empty string. */
  predicate StoredTruthy(v: Stored) {
    v.Plain? ==> v.text != ""
  }

  /** `AsyncStorage.getItem(key)`: the value, `null` when the key is
      missing, or the storage error. */
  function GetItem(st: Store, key: string): (r: Result<Option<Stored>>)
    ensures st.fault.Some? ==> r == Failure(st.fault.value)
    ensures st.fault.None? ==> r.Success? && (r.value.Some? <==> key in st.entries)
    ensures r.Success? && r.value.Some? ==> r.value.value == st.entries[key]
  {
    if st.fault.Some? then Failure(st.fault.value)
    else if key in st.entries then Success(Some(st.entries[key]))
    else Success(None)
  }

  /** `AsyncStorage.setItem(key, v)`. */
  function SetItem(st: Store, key: string, v: Stored): (r: Result<Store>)
    ensures st.fault.Some? ==> r == Failure(st.fault.value)
    ensures st.fault.None? ==> r.Success? && r.value.fault.None?
    ensures r.Success? ==> key in r.value.entries && r.value.entries[key] == v
    ensures r.Success? ==> forall k :: k != key ==> Unchanged(st, r.value, k)
  {
    if st.fault.Some? then Failure(st.fault.value)
    else Success(st.(entries := st.entries[key := v]))
  }

  /** `AsyncStorage.removeItem(key)`. */
  function RemoveItem(st: Store, key: string): (r: Result<Store>)
    ensures st.fault.Some? ==> r == Failure(st.fault.value)
    ensures st.fault.None? ==> r.Success? && r.value.fault.None?
    ensures r.Success? ==> key !in r.value.entries
    ensures r.Success? ==> forall k :: k != key ==> Unchanged(st, r.value, k)
  {
    if st.fault.Some? then Failure(st.fault.value)
    else Success(st.(entries := st.entries - {key}))
  }

  /** The two stores agree on key `k`. */
  predicate Unchanged(a: Store, b: Store, k: string) {
    (k in a.entries <==> k in b.entries)
    && (k in a.entries ==> a.entries[k] == b.entries[k])
  }

  /** `JSON.parse` of a stored string: the serialised document, or nothing
      for a string it rejects. */
  function ParseJson(v: Stored): (r: Option<Json>)
    ensures r.Some? <==> v.Serialized?
  {
    match v
    case Serialized(d) => Some(d)
    case Plain(_) => None
  }
}

=== FILE: text.dfy ===
/** The JavaScript string operations the client relies on: `trim`,
    `includes`, `split`/`join`, ASCII case mapping and number formatting. */
module Text {

  /** ECMAScript line terminators: the characters `.` in a regular
      expression does not match. */
  predicate IsLineTerminator(c: char) {
    c == '\n' || c == '\r' || c == '\U{2028}' || c == '\U{2029}'
  }

  /** The characters `String.prototype.trim` strips: ECMAScript WhiteSpace
      (tab, vertical tab, form feed, space, no-break space, byte-order mark
      and the space separators) and the line terminators. */
  predicate IsJsWhitespace(c: char) {
    || c == '\t' || c == '\U{000B}' || c == '\U{000C}' || c == ' '
    || c == '\U{00A0}' || c == '\U{FEFF}' || c == '\U{1680}'
    || ('\U{2000}' <= c <= '\U{200A}')
    || c == '\U{202F}' || c == '\U{205F}' || c == '\U{3000}'
    || IsLineTerminator(c)
  }

  predicate AllWhitespace(s: string) {
    forall i :: 0 <= i < |s| ==> IsJsWhitespace(s[i])
  }

  /** Drops leading whitespace. */
  function TrimStart(s: string): (r: string)
    ensures |r| <= |s| && r == s[|s| - |r|..]
    ensures |r| > 0 ==> !IsJsWhitespace(r[0])
    ensures forall i :: 0 <= i < |s| - |r| ==> IsJsWhitespace(s[i])
    decreases |s|
  {
    if |s| > 0 && IsJsWhitespace(s[0]) then TrimStart(s[1..]) else s
  }

  /** Drops trailing whitespace. */
  function TrimEnd(s: string): (r: string)
    ensures |r| <= |s| && r == s[..|r|]
    ensures |r| > 0 ==> !IsJsWhitespace(r[|r| - 1])
    ensures forall i :: |r| <= i < |s| ==> IsJsWhitespace(s[i])
    decreases |s|
  {
    if |s| > 0 && IsJsWhitespace(s[|s| - 1]) then TrimEnd(s[..|s| - 1]) else s
  }

  /** `s.trim()`: what is left of `s` after dropping whitespace at both
      ends; it neither starts nor ends with whitespace. */
  function Trim(s: string): (r: string)
    ensures Occurs(r, s)
    ensures |r| > 0 ==> !IsJsWhitespace(r[0]) && !IsJsWhitespace(r[|r| - 1])
    ensures |r| == 0 <==> AllWhitespace(s)
  {
    var t := TrimStart(s);
    var r := TrimEnd(t);
    assert OccursAt(r, s, |s| - |t|);
    r
  }

  /** `!s.trim()`: nothing is left once whitespace is trimmed, which is to
      say every character is whitespace. */
  predicate Blank(s: string) {
    AllWhitespace(s)
  }

  /** `Blank` is exactly the test `!s.trim()`. */
  lemma BlankIffTrimEmpty(s: string)
    ensures Blank(s) <==> Trim(s) == ""
  {
  }

  predicate IsAsciiLower(c: char) { 'a' <= c <= 'z' }
  predicate IsAsciiUpper(c: char) { 'A' <= c <= 'Z' }
  predicate IsAsciiDigit(c: char) { '0' <= c <= '9' }

  function LowerChar(c: char): char {
    if IsAsciiUpper(c) then (c as int + 32) as char else c
  }

  function UpperChar(c: char): char {
    if IsAsciiLower(c) then (c as int - 32) as char else c
  }

  /** `s.toLowerCase()`, restricted to the ASCII letters. */
  function ToLower(s: string): (r: string)
    ensures |r| == |s|
    ensures forall i :: 0 <= i < |s| ==> r[i] == LowerChar(s[i])
  {
    seq(|s|, i requires 0 <= i < |s| => LowerChar(s[i]))
  }

  /** `s.toUpperCase()`, restricted to the ASCII letters. */
  function ToUpper(s: string): (r: string)
    ensures |r| == |s|
    ensures forall i :: 0 <= i < |s| ==> r[i] == UpperChar(s[i])
  {
    seq(|s|, i requires 0 <= i < |s| => UpperChar(s[i]))
  }

  /** Lower-casing forgets the case a string was written in. */
  lemma ToLowerOfToUpper(s: string)
    ensures ToLower(ToUpper(s)) == ToLower(s)
  {
  }

  /** Lower-casing twice is lower-casing once. */
  lemma ToLowerIdempotent(s: string)
    ensures ToLower(ToLower(s)) == ToLower(s)
  {
  }

  /** `needle` occurs in `hay` starting at position `i`. */
  predicate OccursAt(needle: string, hay: string, i: int) {
    0 <= i <= |hay| - |needle| && hay[i..i + |needle|] == needle
  }

  /** `needle` occurs in `hay` at some position. */
  ghost predicate Occurs(needle: string, hay: string) {
    exists i :: OccursAt(needle, hay, i)
  }

  /** `hay.includes(needle)`: a left-to-right scan for a position at which
      `needle` is a prefix of the rest of `hay`. */
  function Includes(hay: string, needle: string): bool
    decreases |hay|
  {
    if needle <= hay then true
    else if |hay| == 0 then false
    else Includes(hay[1..], needle)
  }

  lemma {:induction false} IncludesIffOccurs(hay: string, needle: string)
    ensures Includes(hay, needle) <==> Occurs(needle, hay)
    decreases |hay|
  {
    if needle <= hay {
      assert OccursAt(needle, hay, 0);
    } else if |hay| == 0 {
    } else {
      IncludesIffOccurs(hay[1..], needle);
      if Occurs(needle, hay[1..]) {
        var i :| OccursAt(needle, hay[1..], i);
        assert OccursAt(needle, hay, i + 1);
      }
      if Occurs(needle, hay) {
        var i :| OccursAt(needle, hay, i);
        assert OccursAt(needle, hay[1..], i - 1);
      }
    }
  }

  /** `needle` cannot be found where its first character never appears
      early enough for the rest to fit. */
  lemma {:induction false} NotIncludedWithoutFirstChar(hay: string, needle: string)
    requires |needle| > 0
    requires |hay| < |needle| || needle[0] !in hay[..|hay| - |needle| + 1]
    ensures !Includes(hay, needle)
    decreases |hay|
  {
    if |hay| > 0 && !(needle <= hay) {
      if |hay| - 1 >= |needle| {
        assert hay[1..][..|hay| - 1 - |needle| + 1] <= hay[..|hay| - |needle| + 1][1..];
      }
      NotIncludedWithoutFirstChar(hay[1..], needle);
    }
  }

  /** `s.split(sep)`: the maximal `sep`-free pieces of `s`, in order; an
      empty string gives one empty piece. */
  function Split(s: string, sep: char): (parts: seq<string>)
    ensures |parts| >= 1
    decreases |s|
  {
    if |s| == 0 then [""]
    else
      var rest := Split(s[1..], sep);
      if s[0] == sep then [""] + rest
      else [[s[0]] + rest[0]] + rest[1..]
  }

  /** `parts.join(sep)`. */
  function Join(parts: seq<string>, sep: char): string
    requires |parts| >= 1
    decreases |parts|
  {
    if |parts| == 1 then parts[0]
    else parts[0] + [sep] + Join(parts[1..], sep)
  }

  /** Splitting loses nothing: joining the pieces with the separator
      gives back the original string, and no piece holds the separator. */
  lemma {:induction false} JoinSplit(s: string, sep: char)
    ensures Join(Split(s, sep), sep) == s
    ensures forall k :: 0 <= k < |Split(s, sep)| ==> sep !in Split(s, sep)[k]
    decreases |s|
  {
    if |s| > 0 {
      var rest := Split(s[1..], sep);
      JoinSplit(s[1..], sep);
      if s[0] == sep {
        assert Split(s, sep)[1..] == rest;
      } else {
        var parts := Split(s, sep);
        assert parts[1..] == rest[1..];
        if |rest| == 1 {
          assert Join(parts, sep) == [s[0]] + rest[0];
        } else {
          assert Join(rest, sep) == rest[0] + [sep] + Join(rest[1..], sep);
        }
        assert s == [s[0]] + s[1..];
        forall k | 0 <= k < |parts|
          ensures sep !in parts[k]
        {
          if k > 0 {
            assert parts[k] == rest[k];
          }
        }
      }
    }
  }

  /** `s.substr(start, length)` for non-negative arguments. */
  function Substr(s: string, start: nat, length: nat): (r: string)
    ensures |r| <= length
    ensures start + length <= |s| ==> r == s[start..start + length]
  {
    var a := if start < |s| then start else |s|;
    var b := if start + length < |s| then start + length else |s|;
    s[a..b]
  }

  function DigitChar(d: nat): char
    requires d < 10
  {
    ('0' as int + d) as char
  }

  /** `n.toString()` for a non-negative integer: its decimal digits, with no
      leading zero. */
  function NatToString(n: nat): (r: string)
    ensures |r| >= 1
    ensures forall i :: 0 <= i < |r| ==> IsAsciiDigit(r[i])
    ensures n > 0 ==> r[0] != '0'
  {
    if n < 10 then [DigitChar(n)]
    else NatToString(n / 10) + [DigitChar(n % 10)]
  }

  /** The value of a string of decimal digits. */
  function ParseDecimal(s: string): nat
    requires forall i :: 0 <= i < |s| ==> IsAsciiDigit(s[i])
  {
    if |s| == 0 then 0
    else assert IsAsciiDigit(s[|s| - 1]); 10 * ParseDecimal(s[..|s| - 1]) + (s[|s| - 1] as int - '0' as int)
  }

  /** The decimal text of a number reads back as that number. */
  lemma {:induction false} ParseNatToString(n: nat)
    ensures ParseDecimal(NatToString(n)) == n
  {
    if n >= 10 {
      var r := NatToString(n);
      assert r[..|r| - 1] == NatToString(n / 10);
      ParseNatToString(n / 10);
    }
  }
}

=== FILE: ui.dfy ===
/** The observable effects of the screens: navigation targets and the
    alerts they raise. Rendering itself is not modelled. */
module Ui {

  /** The screens of the authentication flow (`AuthScreen` in
      components/auth/types.ts). */
  datatype Screen =
    | SignIn
    | ForgotPasswordScreen
    | ResetPasswordScreen
    | SignUp
    | StudentDashboard
    | CounselorDashboardScreen

  /** A modal alert with a title and a message. */
  datatype Alert = Alert(title: string, message: string)
}

=== FILE: wrappers.dfy ===
/** Option and Result values used for the nullable values and rejected
    promises of the modelled client. */
module Wrappers {

  /** A value that may be missing: `null`/`undefined` in the client. */
  datatype Option<+T> = None | Some(value: T)

  /** The outcome of an asynchronous call: a resolved value or the message
      of the `Error` it was rejected with. */
  datatype Result<+R> = Success(value: R) | Failure(error: string)
}
